=== FILE: README.md ===
# Contact form application — a Dafny model

This project models the core of a small contact-form web application. It has
an Express/Mongoose back end that stores contacts and a React front end that
submits, lists, sorts and deletes them.

The back end is modelled as follows:

- The Mongoose schema for a contact (`ContactSchema`): its setters (trim,
  lower-case), its validators and their messages, and the record that a
  successful save persists.
- The three routes of `/api/contacts` (`ContactRoutes`):
  - `POST` validates the body and stores the contact.
  - `GET` lists every contact, newest first.
  - `DELETE /:id` removes one contact, or answers 404.

  Each route is a pure function from the collection's state to a response
  and a new state. The class `ContactStore` updates the collection in place,
  and each of its methods is proved equal to that function.

The front end is modelled as three classes:

- The form (`ContactFormModel`): client-side validation, input changes,
  the submit cycle and how the server's reply is shown.
- The table (`ContactListModel`): sorting by header clicks, sort icons and
  the one-row delete confirmation.
- The top-level app (`AppModel`): the client's copy of the list and the
  choice between the loading text, the error panel and the table.

Two modules support the rest. `Text` models `trim` and `toLowerCase`.
`Patterns` holds recognisers for the email and phone regular expressions,
each proved equal to a declarative description of the strings the pattern
accepts.

Main results:

- Every record POST stores satisfies the schema. Its fields are already in
  normal form, so validating and normalising it again changes nothing
  (`StoredRecordRevalidates`).
- The collection's invariant survives every POST and DELETE.
- GET lists each stored record exactly once, in descending `createdAt`
  order, with the right count.
- `success` is true exactly on 2xx responses.
- Whatever the client-side checks accept, the schema accepts too, except
  names longer than 100 UTF-16 code units, which the client never checks. A
  concrete name of 101 letters shows this gap.
- In the form, blanking an error message keeps its key, and the submit
  button is disabled while any key is present. A disabled submit button also
  blocks submitting with Enter. So once any error has been shown, the form
  can never be submitted again until the page is reloaded: no edit clears
  the key, and only a successful submission would.
- In the app, a recorded fetch error is never cleared. So after one failed
  fetch the error panel stays up, even after a successful retry.

## Model

| member | source | states |
|---|---|---|
| Text.Trim | backend/models/Contact.js:7 | `trim` leaves no whitespace at either end and never lengthens the string |
| Text.TrimStart | backend/models/Contact.js:7 | the result is no longer than the input and does not start with whitespace |
| Text.TrimEnd | backend/models/Contact.js:7 | the result is no longer than the input and does not end with whitespace |
| Text.TrimStartSuffix | backend/models/Contact.js:7 | leading trim keeps a suffix of the input and drops only whitespace |
| Text.TrimEndPrefix | backend/models/Contact.js:7 | trailing trim keeps a prefix of the input and drops only whitespace |
| Text.TrimFacts | frontend/src/components/ContactForm.jsx:20 | the result is the slice of the input between a whitespace prefix and a whitespace suffix; its characters come from the input; the result is empty exactly when the input is all whitespace (the client's "is required" test); a trimmed string is left alone |
| Text.TrimIdempotent | backend/models/Contact.js:7 | trimming twice is trimming once |
| Text.Lower | backend/models/Contact.js:15 | `lowercase` keeps the length and maps each character through `LowerChar` |
| Text.LowerChar | backend/models/Contact.js:15 | lower-casing maps each upper-case letter to the lower-case letter at the same place in the alphabet, changes nothing else, and keeps word characters and whitespace |
| Text.Utf16Length | backend/models/Contact.js:6-9 | a string's `length` counts UTF-16 code units: a single character counts 1 when it lies in the Basic Multilingual Plane and 2 otherwise; with `Utf16LengthConcat` this fixes the length of every string, which lies between the character count and twice it |
| Text.SurrogatePairLength | backend/models/Contact.js:6-9 | one character outside the Basic Multilingual Plane has length 2 |
| Text.BasicPlaneLength | backend/models/Contact.js:6-9 | two Basic Multilingual Plane characters have length 2 |
| Text.Utf16LengthConcat | backend/models/Contact.js:6-9 | lengths add up over concatenation |
| Text.TrimUtf16Length | backend/models/Contact.js:27-31 | trimming never makes a string longer in code units |
| Text.LowerKeepsTrimmed | backend/models/Contact.js:14-15 | lower-casing a trimmed string leaves it trimmed |
| Text.LowerFacts | backend/models/Contact.js:15 | the result has no upper-case letter, and a string without one is left alone |
| Text.LowerIdempotent | backend/models/Contact.js:15 | lower-casing twice is lower-casing once |
| Patterns.IndexOf | backend/models/Contact.js:17 | the first '@' the pattern splits at: index of the first occurrence, or the length when absent |
| Patterns.MatchEmail | backend/models/Contact.js:17 | `test` of the email pattern: an accepted address has a non-empty local part and domain around its first '@'; `MatchEmailIsEmailShape` gives its exact language |
| Patterns.LastSep | backend/models/Contact.js:17 | the last '.' or '-', where the final `\.\w{2,3}` group must begin |
| Patterns.MatchRunsIsWordRuns | backend/models/Contact.js:17 | the scan of `\w+([\.-]?\w+)*` accepts exactly the word runs: non-empty, word characters and single separators, a word character at each end |
| Patterns.MatchDomainIsDomainShape | backend/models/Contact.js:17 | the domain check accepts exactly word runs whose last separator is a '.' followed by 2 or 3 word characters |
| Patterns.MatchEmailIsEmailShape | backend/models/Contact.js:17 | the email recogniser accepts exactly local-part '@' domain of those shapes |
| Patterns.MatchedEmailHasShape | backend/models/Contact.js:17 | an accepted address has the shape local-part '@' domain |
| Patterns.ShapedEmailMatches | backend/models/Contact.js:17 | a string of that shape, split at any '@', is accepted |
| Patterns.FirstAt | backend/models/Contact.js:17 | an '@' preceded only by word runs is the first '@', so the pattern's split is unique |
| Patterns.MatchRunsEnds | backend/models/Contact.js:17 | accepted runs begin and end with a word character |
| Patterns.EmailHasNoOuterSpace | frontend/src/components/ContactForm.jsx:29 | an address the pattern accepts has no whitespace at either end |
| Patterns.MatchRunsWord | backend/models/Contact.js:17 | every non-empty run of word characters matches `\w+` |
| Patterns.MatchRunsLower | backend/models/Contact.js:15-17 | lower-casing never changes the verdict on a word run |
| Patterns.LastSepLower | backend/models/Contact.js:15-17 | lower-casing keeps the last separator in place |
| Patterns.IndexOfLower | backend/models/Contact.js:15-17 | lower-casing keeps the first '@' in place |
| Patterns.MatchEmailLower | backend/models/Contact.js:15-17 | the verdict on the lower-cased address equals the verdict on the address |
| Patterns.MatchDomainLower | backend/models/Contact.js:15-17 | lower-casing never changes the verdict on a domain |
| Patterns.MatchRunsJoin | backend/models/Contact.js:17 | two word runs joined by one separator form a word run |
| Patterns.EmailSplit | backend/models/Contact.js:17 | with a well-formed local part, an address is accepted exactly when its domain is |
| Patterns.ExampleDomain | backend/models/Contact.js:17 | "example.com" is an accepted domain |
| Patterns.EmailAccepted | backend/models/Contact.js:17 | "user" + "@" + "example.com" is accepted |
| Patterns.EmailRejectsLongSegment | backend/models/Contact.js:17 | a four-letter final segment ("a@b.info") is rejected |
| Patterns.EmailRejectsNoAt | backend/models/Contact.js:17 | a string without '@' is rejected |
| Patterns.EmailRejectedExamples | backend/models/Contact.js:17 | "not-an-email" and "" are rejected |
| Patterns.AllPhoneChars | backend/models/Contact.js:25 | true exactly when every character is a digit, whitespace, '-', '+', '(' or ')' |
| Patterns.MatchPhone | backend/models/Contact.js:25 | `^[\d\s\-\+\(\)]+$` accepts exactly the non-empty strings of phone characters |
| Patterns.PhoneAccepted | backend/models/Contact.js:25 | "+1 (555) 123-4567" is accepted |
| Patterns.PhoneRejectedExamples | backend/models/Contact.js:25 | "abc123" and "" are rejected |
| ContactSchema.NameError | backend/models/Contact.js:4-10 | after trimming: "is required" exactly when absent or empty, "too short" exactly when 1 code unit long, "cannot exceed" exactly when over 100, no error exactly when 2 to 100; lengths are counted in UTF-16 code units |
| ContactSchema.EmailError | backend/models/Contact.js:11-20 | "is required" exactly when absent or blank; no error exactly when the trimmed, lower-cased value matches the pattern; otherwise "valid email" |
| ContactSchema.EmailRule | backend/models/Contact.js:11-20 | a value passes exactly when its trimmed, lower-cased form has the shape of an address |
| ContactSchema.PhoneError | backend/models/Contact.js:21-26 | "is required" exactly when absent or blank; no error exactly when the trimmed value is all phone characters; otherwise "valid phone number" |
| ContactSchema.MessageError | backend/models/Contact.js:27-31 | the message is optional; the only error is "cannot exceed 500", exactly when the trimmed value is longer than 500 UTF-16 code units |
| ContactSchema.ServerErrors | backend/routes/contacts.js:30-34 | the `errors` object holds exactly the failing fields, each with its validator's message |
| ContactSchema.Build | backend/models/Contact.js:3-35 | a saved record has the store's identifier, `createdAt` equal to the time of the request, the submitted name, phone and message trimmed, the email trimmed and lower-cased, and no message when none was sent |
| ContactSchema.NoFieldErrors | backend/models/Contact.js:3-36 | a candidate with no errors passes each field's validator |
| ContactSchema.BuildConforms | backend/models/Contact.js:3-36 | every record a successful save builds is in normal form: trimmed fields, lower-case email, within all bounds and patterns |
| ContactSchema.StoredRecordRevalidates | backend/models/Contact.js:3-36 | a conforming record passes the schema again, and normalising it again gives the same record |
| ContactSchema.AllFieldsPass | backend/routes/contacts.js:30-34 | a candidate passing every field's validator gets no errors at all |
| ContactSchema.NormalNamePasses | backend/models/Contact.js:4-10 | a trimmed name of 2 to 100 UTF-16 code units passes and is left unchanged by `trim` |
| ContactSchema.NormalEmailPasses | backend/models/Contact.js:11-20 | a trimmed, lower-case, matching address passes and is left unchanged by the setters |
| ContactSchema.NormalPhonePasses | backend/models/Contact.js:21-26 | a trimmed, non-empty run of phone characters passes and is left unchanged |
| ContactSchema.NormalMessagePasses | backend/models/Contact.js:27-31 | a trimmed message of at most 500 UTF-16 code units, or none, passes |
| ContactSchema.NoUniqueField | backend/models/Contact.js:3-36 | no field is unique: the same valid fields saved twice give two records that differ only in identifier and timestamp |
| ContactSchema.SurrogateNamePasses | backend/models/Contact.js:6-7 | a name of a single emoji has length 2 and so passes the 2-character minimum |
| ContactSchema.NameBounds | backend/models/Contact.js:6-9 | the name rule at its bounds: blank, 1 character, 2 to 100, over 100 |
| Sorting.Insert | frontend/src/components/ContactList.jsx:8 | inserting adds exactly the one element and keeps the rest |
| Sorting.SortBy | frontend/src/components/ContactList.jsx:8 | the sorted copy is a permutation of the input |
| Sorting.InsertChained | frontend/src/components/ContactList.jsx:8 | under a total comparator, inserting into an ordered sequence keeps it ordered |
| Sorting.SortByChained | frontend/src/components/ContactList.jsx:8 | under a total comparator, each element of the sorted copy may go before the next |
| Sorting.ChainedIsSorted | frontend/src/components/ContactList.jsx:8 | with a transitive comparator, ordered neighbours mean all pairs are ordered |
| Sorting.SortBySorted | frontend/src/components/ContactList.jsx:8-25 | a consistent comparator sorts: the result is ordered and a permutation of the input |
| Sorting.SortByKeepsOrdered | frontend/src/components/ContactList.jsx:8 | input that is already in order comes back unchanged |
| ContactRoutes.Pick | backend/routes/contacts.js:10 | each of the four schema keys becomes its field, with the body's value when present and absent otherwise; no other key is read |
| ContactRoutes.PickIgnoresOtherKeys | backend/routes/contacts.js:10-18 | adding or removing any other key of the body has no effect |
| ContactRoutes.InsertionOrder | backend/routes/contacts.js:55 | the collection in insertion order has at most one entry per identifier below the bound |
| ContactRoutes.Listing | backend/routes/contacts.js:55 | `find().sort({ createdAt: -1 })`: a permutation of the stored records; `ListingFacts` and `ListingNewestFirst` give the order, the single occurrence of each record and the count |
| ContactRoutes.InsertionOrderOccurrences | backend/routes/contacts.js:55 | each stored record occurs in it exactly once, and nothing else occurs |
| ContactRoutes.InsertionOrderLength | backend/routes/contacts.js:55 | its length is the number of identifiers in use |
| ContactRoutes.NewerFirstConsistent | backend/routes/contacts.js:55 | the `createdAt: -1` order is total and transitive |
| ContactRoutes.ListingFacts | backend/routes/contacts.js:55 | the listing is in descending `createdAt` order, holds each stored record exactly once, and has one entry per record |
| ContactRoutes.ListingNewestFirst | backend/routes/contacts.js:55 | the listing is in descending `createdAt` order and a permutation of the stored records in insertion order |
| ContactRoutes.ListingMembers | backend/routes/contacts.js:55 | a record is listed exactly when it is stored |
| ContactRoutes.PostRejectsInvalid | backend/routes/contacts.js:21-40 | an invalid body gets 400 with exactly the schema's errors, whatever the database's state, and nothing is stored |
| ContactRoutes.PostOutcome | backend/routes/contacts.js:8-48 | `success` matches the status; 400 exactly when the schema reports an error, 201 exactly when it reports none and the database is up, 500 exactly when it reports none and the database is down; only a 201 changes the collection; `PostRejectsInvalid` and `PostStoresValid` fix the bodies |
| ContactRoutes.PostStoresValid | backend/routes/contacts.js:13-27 | a valid body with the database up gets 201; exactly one record is added, under an unused identifier and stamped with the request time; it is echoed back; the record is the one `Build` makes from the picked body, the identifier and the request time; every other record is unchanged |
| ContactRoutes.CreatedThenListed | backend/routes/contacts.js:8-48 | after a successful POST the next GET lists the new record, with the submitted name, phone and message trimmed, the email trimmed and lower-cased, and the request time |
| ContactRoutes.PostStores | backend/routes/contacts.js:21 | a valid save stores the built record under the next identifier |
| ContactRoutes.PostKeeps | backend/routes/contacts.js:28-47 | an invalid body or a database error leaves the collection unchanged |
| ContactRoutes.InsertKeepsInvariant | backend/routes/contacts.js:21 | storing a conforming record under the next identifier keeps the collection's invariant |
| ContactRoutes.RemoveKeepsInvariant | backend/routes/contacts.js:85 | removing any record keeps the collection's invariant |
| ContactRoutes.PostKeepsInvariant | backend/routes/contacts.js:8-48 | after POST every stored record still satisfies the schema, is keyed by its identifier, and identifiers stay below the next one |
| ContactRoutes.DeleteKeepsInvariant | backend/routes/contacts.js:74-98 | DELETE keeps the collection's invariant |
| ContactRoutes.ResponsesConsistent | backend/routes/contacts.js:23-97 | every response of all three routes sets `success` exactly when its status is 2xx |
| ContactRoutes.GetListsAll | backend/routes/contacts.js:53-61 | GET with the database up answers 200; `count` equals the listing's length and the number of stored records; a record is listed exactly when it is stored |
| ContactRoutes.GetResponse | backend/routes/contacts.js:53-69 | `success` matches the status; 200 exactly when the database is up, with `count` equal to the number of listed records and of stored records in insertion order; otherwise 500 with `success` false and the database's error; `GetListsAll` fixes the contents |
| ContactRoutes.DeleteRemovesOnly | backend/routes/contacts.js:76-90 | a stored identifier is removed and nothing else changes (200); an unknown one gets 404 and changes nothing; identifiers are never reused |
| ContactRoutes.DeleteOutcome | backend/routes/contacts.js:74-98 | `success` matches the status; 200 exactly for a well-formed, stored identifier with the database up, which is then removed; 404 with "Contact not found" exactly for a well-formed identifier not stored; a malformed identifier gets 500 with the cast error, and a database failure 500 with its error; every answer but 200 changes nothing; the next identifier never changes |
| ContactRoutes.DeleteTwice | backend/routes/contacts.js:76-83 | deleting the same identifier a second time gets 404 |
| ContactRoutes.DuplicateSubmissions | backend/routes/contacts.js:8-27 | two identical valid submissions are both stored as two records that differ only in identifier and timestamp |
| ContactRoutes.ContactStore.constructor | backend/models/Contact.js:38 | a new collection is empty and satisfies the invariant |
| ContactRoutes.ContactStore.Post | backend/routes/contacts.js:8-48 | the response and the new collection are those of `PostOutcome` on the old collection; the invariant is kept |
| ContactRoutes.ContactStore.Get | backend/routes/contacts.js:53-69 | the response is `GetResponse` of the collection: the newest-first listing, or 500 with the driver's message |
| ContactRoutes.ContactStore.Delete | backend/routes/contacts.js:74-98 | the response and the new collection are those of `DeleteOutcome`: 500 for a cast or database error, 404 for an unknown identifier, else removal with 200; the invariant is kept |
| ContactListModel.NextSort | frontend/src/components/ContactList.jsx:28-33 | the clicked column becomes the sort key; the direction is descending exactly when that column was already sorted ascending |
| ContactListModel.RepeatedClicksAlternate | frontend/src/components/ContactList.jsx:28-33 | clicking the same header again flips the direction; a first click on another column sorts it ascending; the third click equals the first |
| ContactListModel.FirstDateClick | frontend/src/components/ContactList.jsx:4 | from the initial newest-first order, a click on the date header sorts oldest first |
| ContactListModel.ComparatorConsistent | frontend/src/components/ContactList.jsx:8-25 | given a consistent `localeCompare`, every sort configuration yields a total, transitive comparator |
| ContactListModel.Comparator | frontend/src/components/ContactList.jsx:8-25 | on the date column, `a` goes first exactly when it is older (ascending) or newer (descending); `ComparatorConsistent` makes every column total and transitive |
| ContactListModel.DescendingSwapsArguments | frontend/src/components/ContactList.jsx:13-21 | in every column the descending comparator is the ascending one with its arguments swapped |
| ContactListModel.SortedContacts | frontend/src/components/ContactList.jsx:8 | the displayed rows are a permutation of the prop |
| ContactListModel.SortedByDate | frontend/src/components/ContactList.jsx:12-16 | sorted by date, rows are oldest first when ascending and newest first when descending |
| ContactListModel.SortedByText | frontend/src/components/ContactList.jsx:18-22 | sorted by name, email or phone, rows follow the collation, reversed when descending |
| ContactListModel.Icon | frontend/src/components/ContactList.jsx:70-73 | ⇅ exactly on inactive columns, ↑ exactly on the active ascending column, ↓ exactly on the active descending column |
| ContactListModel.ClickedColumnShowsArrow | frontend/src/components/ContactList.jsx:95-119 | after a click the clicked column shows an arrow and every other column shows ⇅ |
| ContactListModel.DeleteReplyFor | frontend/src/components/ContactList.jsx:42-51 | the table treats a reply as a success exactly when its `success` flag is set |
| ContactListModel.ConfirmedDeleteSucceeds | frontend/src/components/ContactList.jsx:36-48 | confirming the deletion of a stored contact, with the database up, is reported as a success |
| ContactListModel.StaleDeleteRefused | frontend/src/components/ContactList.jsx:49-50 | deleting a contact that is already gone is refused with "Contact not found" |
| ContactListModel.ContactList.constructor | frontend/src/components/ContactList.jsx:4-5 | the table starts sorted by date descending with no row armed |
| ContactListModel.ContactList.HandleSort | frontend/src/components/ContactList.jsx:28-33 | the sort becomes `NextSort` of the previous one; the armed row is unchanged |
| ContactListModel.ContactList.Arm | frontend/src/components/ContactList.jsx:150-155 | Delete arms exactly that row, disarming any other |
| ContactListModel.ContactList.Cancel | frontend/src/components/ContactList.jsx:142-147 | cancel disarms the row |
| ContactListModel.ContactList.Confirm | frontend/src/components/ContactList.jsx:36-55 | the armed row's identifier is requested; on success it is reported to the parent and the row disarmed, otherwise nothing changes |
| ContactFormModel.SetField | frontend/src/components/ContactForm.jsx:51-55 | the edited input takes the new value and the other inputs keep theirs |
| ContactFormModel.ClientNameError | frontend/src/components/ContactForm.jsx:20-24 | no error exactly when the trimmed name has at least 2 UTF-16 code units; "is required" exactly when it is blank; otherwise "at least 2 characters" |
| ContactFormModel.ClientEmailError | frontend/src/components/ContactForm.jsx:27-31 | no error exactly when the input is not blank and matches the pattern as typed; "is required" exactly when it is blank; otherwise "valid email" |
| ContactFormModel.ClientPhoneError | frontend/src/components/ContactForm.jsx:34-38 | no error exactly when the input is not blank and is all phone characters as typed; "is required" exactly when it is blank; otherwise "valid phone number" |
| ContactFormModel.ClientMessageError | frontend/src/components/ContactForm.jsx:41-43 | the only error is "cannot exceed 500", exactly when the raw message is longer than 500 UTF-16 code units |
| ContactFormModel.ClientErrors | frontend/src/components/ContactForm.jsx:16-46 | `newErrors` holds exactly the failing fields, each with its message |
| ContactFormModel.RequestBody | frontend/src/components/ContactForm.jsx:87 | all four inputs are sent, as strings |
| ContactFormModel.RequestBodyPicked | frontend/src/components/ContactForm.jsx:87 | the route reads all four fields of the body the form sends |
| ContactFormModel.ClientEmailAgrees | frontend/src/components/ContactForm.jsx:29 | an address the client accepts is accepted by the schema too |
| ContactFormModel.ClientPhoneAgrees | frontend/src/components/ContactForm.jsx:36 | a phone number the client accepts is accepted by the schema too |
| ContactFormModel.ClientAcceptedFields | frontend/src/components/ContactForm.jsx:45-46 | a form with no client errors passes each of the client's field checks |
| ContactFormModel.NoClientErrors | frontend/src/components/ContactForm.jsx:16-46 | a form passing each field check has no client errors |
| ContactFormModel.OnlyNameFails | backend/models/Contact.js:3-36 | when email, phone and message pass, the schema's errors are the name's error alone, or none |
| ContactFormModel.NameAloneFails | backend/routes/contacts.js:30-34 | when only the name fails, the `errors` object holds the name's message and nothing else |
| ContactFormModel.ClientAcceptedServerRejectsOnlyLongName | frontend/src/components/ContactForm.jsx:16-46 | a form the client accepts is accepted by the schema unless its trimmed name is over 100 UTF-16 code units, which gets exactly "cannot exceed 100" |
| ContactFormModel.ClientNameAgrees | frontend/src/components/ContactForm.jsx:20-24 | a name the client accepts is refused by the schema only as over 100 code units, with "cannot exceed 100" |
| ContactFormModel.LongName | frontend/src/components/ContactForm.jsx:20-24 | a 101-letter name passes the client check and is over the schema's bound |
| ContactFormModel.ExampleEmailPassesClient | frontend/src/components/ContactForm.jsx:27-31 | "user@example.com" passes the client check |
| ContactFormModel.ExamplePhonePassesClient | frontend/src/components/ContactForm.jsx:34-38 | "+1 (555) 123-4567" passes the client check |
| ContactFormModel.PhoneWithNonSpacePassesClient | frontend/src/components/ContactForm.jsx:34-38 | a string of phone characters that does not start with whitespace passes the client check |
| ContactFormModel.LongNameGetsPastClient | frontend/src/components/ContactForm.jsx:20-24 | a concrete form with a 101-letter name has no client errors and is refused by the schema with only "cannot exceed 100" |
| ContactFormModel.Lift | frontend/src/components/ContactForm.jsx:112-113 | the server's `errors` are shown under their fields, with the same messages, and nothing else is shown |
| ContactFormModel.ClearedError | frontend/src/components/ContactForm.jsx:58-63 | editing a field blanks its message but keeps every key; other messages are unchanged |
| ContactFormModel.EditsKeepErrorKeys | frontend/src/components/ContactForm.jsx:126-131 | no sequence of edits removes an error key, so `isFormValid` stays false once any error is shown |
| ContactFormModel.ReplyFor | frontend/src/components/ContactForm.jsx:90-116 | a reply is accepted exactly when the route saved the contact, and then carries the saved record; a 400 passes on the route's `errors` and message; a refusal without `errors` carries the route's message |
| ContactFormModel.ValidSubmissionAccepted | frontend/src/components/ContactForm.jsx:94-105 | with the database up, a valid body's reply is accepted and carries the record the route built and stored, which is what `onContactAdded` receives |
| ContactFormModel.RefusalErrors | frontend/src/components/ContactForm.jsx:111-116 | an `errors` object, even an empty one, replaces the errors; otherwise only `submit` is set, to the message or to "Failed to submit contact" when it is missing or empty |
| ContactFormModel.InvalidReplyShowsServerErrors | frontend/src/components/ContactForm.jsx:112-113 | an invalid submission shows exactly the schema's messages under their fields |
| ContactFormModel.ServerFailureShowsMessage | frontend/src/components/ContactForm.jsx:114-116 | a database failure on a valid submission shows "Server error" above the form |
| ContactFormModel.ContactForm.constructor | frontend/src/components/ContactForm.jsx:4-13 | the form starts empty, without errors, not submitting and without a banner |
| ContactFormModel.ContactForm.IsFormValid | frontend/src/components/ContactForm.jsx:126-131 | the form is valid exactly when it has no error key and passes the client's three "is required" checks |
| ContactFormModel.ContactForm.SubmitEnabled | frontend/src/components/ContactForm.jsx:225 | the button is enabled exactly when the form is valid and no submission is in flight, so any error key disables it |
| ContactFormModel.ContactForm.HandleChange | frontend/src/components/ContactForm.jsx:50-69 | the input takes the value, its message is blanked, the banner is hidden, and if any error was shown the form stays invalid |
| ContactFormModel.ContactForm.StartSubmit | frontend/src/components/ContactForm.jsx:72-87 | called only while the button is enabled; the client errors are shown; if there are none the form is submitting and the request body is handed back, otherwise no request is made and the button is disabled from then on |
| ContactFormModel.ContactForm.FinishSubmit | frontend/src/components/ContactForm.jsx:79-122 | success clears the form and errors, shows the banner and passes the contact to the parent; a refusal shows its errors; a network failure shows "Network error"; submitting always ends |
| AppModel.Without | frontend/src/App.js:40-42 | the filter keeps exactly the contacts with a different identifier |
| AppModel.WithoutConcat | frontend/src/App.js:41 | filtering distributes over concatenation, so kept contacts keep their order |
| AppModel.WithoutAbsent | frontend/src/App.js:41 | deleting an identifier no contact has changes nothing |
| AppModel.WithoutIdempotent | frontend/src/App.js:41 | deleting twice is deleting once |
| AppModel.AddThenDelete | frontend/src/App.js:35-42 | deleting a just-added contact whose identifier is new restores the list |
| AppModel.SelectView | frontend/src/App.js:54-74 | the loading text exactly while loading; the error panel, showing the recorded message, exactly when not loading and an error is recorded; otherwise the table of the client's contacts |
| AppModel.FetchReplyFor | frontend/src/App.js:20-26 | a fetch succeeds exactly when the route answered with a listing |
| AppModel.FetchGetsListing | frontend/src/App.js:17-23 | with the database up, a fetch brings the server's newest-first listing |
| AppModel.App.constructor | frontend/src/App.js:8-10 | the app starts with no contacts, loading, and no error |
| AppModel.App.FetchContacts | frontend/src/App.js:17-32 | loading ends; success replaces the list; each failure records its message; a recorded error is never cleared, so the error panel stays |
| AppModel.App.ContactAdded | frontend/src/App.js:35-37 | the new contact goes first and the others follow in order |
| AppModel.App.ContactDeleted | frontend/src/App.js:40-42 | the list becomes the filtered list |

## Left out

- Character classes: `\s`, `trim` and `\w` cover only ASCII. Unicode whitespace (no-break space, line separators and so on) is not modelled, and neither is `toLowerCase` on non-ASCII letters.
- Running time of the email pattern: `\w+([\.-]?\w+)*` backtracks exponentially when a long word run is not followed by a match, for example forty letters followed by '!'. The model gives the pattern's verdict, not the time it takes, in the schema's validator (backend/models/Contact.js:17, run by the save at backend/routes/contacts.js:21) and in `validateForm` (frontend/src/components/ContactForm.jsx:29).
- Unpaired surrogates: a JavaScript string can hold a lone surrogate code unit, but a Dafny `char` cannot, so such strings are outside the model. Lengths are counted in UTF-16 code units as JavaScript counts them.
- JSON values other than strings: the route's fields are strings or absent. Mongoose's casting of numbers, booleans and objects is not modelled, and an explicit `null` is treated as an absent field.
- Identifiers: Mongo ObjectIds are naturals handed out in increasing order. A malformed `:id` is a parameter carrying the cast error's message, not a parsed string.
- Clock and database: `Date.now` is the `now` parameter. A database error is the `Db` parameter, meaning a failure of the whole operation. On DELETE, a failure between `findById` and `findByIdAndDelete` is not modelled separately.
- ContactRoutes.Listing: documents whose `createdAt` values tie are listed in insertion order. MongoDB does not promise this order for ties.
- Sorting.SortBy: `Array.prototype.sort` is modelled by an insertion sort. The browser's algorithm is not modelled, and a comparator that is not total and transitive gives an unspecified order. Stability (ties keep their input order in every input) is not stated; only input already in order is shown to come back unchanged.
- ContactListModel.SortedContacts: `localeCompare` is a parameter, and the results require it to be total and transitive. No particular locale's collation is modelled.
- ContactListModel.SortedContacts: the `return 0` branch for non-string values cannot occur, because every sortable column holds a string.
- ContactListModel.SortedByText: the model does not claim that the descending order is exactly the ascending order reversed. With ties, it is not.
- Network and asynchrony: `fetch`, `response.json()` and `await` are not modelled.
  - Each request's outcome is a reply parameter (`SubmitReply`, `DeleteReply`, `FetchReply`), and the functions `ReplyFor`, `DeleteReplyFor` and `FetchReplyFor` tie replies to the route model's responses.
  - `handleSubmit` is split into `StartSubmit` (before the request) and `FinishSubmit` (after the reply).
  - Interleavings between overlapping requests are not modelled.
- Timers, dialogs and rendering: the 3-second timer that hides the success banner, the `alert` dialogs of the table, `formatDate`, the empty-table message and all markup are not modelled. The table's `alert` on failure changes no state and is left out.
- `useEffect`: the first `fetchContacts` on mount is not modelled; `App.FetchContacts` is one completed fetch, which the mount or the Retry button starts.
- The server set-up (`server.js`: CORS, JSON parsing, the database connection) is not part of this model.

=== FILE: app.dfy ===
/**
 * The top-level component (frontend/src/App.js): the client's copy of the
 * contact list, how it follows additions, deletions and fetches, and which
 * of the loading message, the error panel or the table it shows.
 */
module AppModel {
  import opened Wrappers
  import opened ContactSchema
  import opened ContactRoutes

  /** `contacts.filter(contact => contact._id !== id)`. */
  function Without(s: seq<Contact>, id: Id): (r: seq<Contact>)
    ensures |r| <= |s|
    ensures forall c :: c in r <==> c in s && c.id != id
  {
    if s == [] then []
    else if s[0].id == id then Without(s[1..], id)
    else [s[0]] + Without(s[1..], id)
  }

  /** Filtering distributes over concatenation, so the kept contacts stay in their order. */
  lemma {:induction false} WithoutConcat(a: seq<Contact>, b: seq<Contact>, id: Id)
    ensures Without(a + b, id) == Without(a, id) + Without(b, id)
  {
    if a == [] {
      assert a + b == b;
    } else {
      assert (a + b)[0] == a[0] && (a + b)[1..] == a[1..] + b;
      WithoutConcat(a[1..], b, id);
    }
  }

  /** Deleting an identifier no contact has changes nothing. */
  lemma {:induction false} WithoutAbsent(s: seq<Contact>, id: Id)
    requires forall c :: c in s ==> c.id != id
    ensures Without(s, id) == s
  {
    if s != [] {
      WithoutAbsent(s[1..], id);
    }
  }

  /** Deleting twice is deleting once. */
  lemma WithoutIdempotent(s: seq<Contact>, id: Id)
    ensures Without(Without(s, id), id) == Without(s, id)
  {
    WithoutAbsent(Without(s, id), id);
  }

  /** Deleting a contact just added, whose identifier is new, restores the list. */
  lemma AddThenDelete(s: seq<Contact>, c: Contact)
    requires forall x :: x in s ==> x.id != c.id
    ensures Without([c] + s, c.id) == s
  {
    WithoutConcat([c], s, c.id);
    WithoutAbsent(s, c.id);
  }

  /** What the page shows below the form. */
  datatype View = LoadingView | ErrorView(message: string) | ListView(contacts: seq<Contact>)

  /** Loading first, then the error panel if an error was ever recorded, else the table. */
  function SelectView(loading: bool, error: Option<string>, contacts: seq<Contact>): (v: View)
    ensures v.LoadingView? <==> loading
    ensures v.ErrorView? <==> !loading && error.Some?
    ensures v.ErrorView? ==> v.message == error.value
    ensures v.ListView? ==> v.contacts == contacts
  {
    if loading then LoadingView
    else if error.Some? then ErrorView(error.value)
    else ListView(contacts)
  }

  const FetchFailed := "Failed to fetch contacts"
  const BackendDown := "Network error. Please check if the backend is running."

  /** The JSON of GET /api/contacts, or a failure of `fetch` or of the JSON parse. */
  datatype FetchReply = Fetched(data: seq<Contact>) | FetchRefused | FetchNetworkError

  /** The reply a GET route response turns into on the client. */
  function FetchReplyFor(res: Response): (reply: FetchReply)
    ensures reply.Fetched? <==> res.body.Listed?
  {
    match res.body
    case Listed(_, data) => Fetched(data)
    case _ => FetchRefused
  }

  /** With the database up, a fetch brings the server's listing: every stored contact, newest first. */
  lemma FetchGetsListing(s: Store)
    ensures FetchReplyFor(GetResponse(s, Up)) == Fetched(Listing(s.contacts, s.nextId))
  {
  }

  /** The top-level component's state. */
  class App {
    var contacts: seq<Contact>
    var loading: bool
    var error: Option<string>

    constructor ()
      ensures contacts == [] && loading && error == None
    {
      contacts := [];
      loading := true;
      error := None;
    }

    function CurrentView(): View
      reads this
    {
      SelectView(loading, error, contacts)
    }

    /**
     * `fetchContacts` once its reply is in: take the server's list or record
     * an error, and stop loading. The error is never cleared, so after a
     * failure even a successful retry leaves the error panel up.
     */
    method FetchContacts(reply: FetchReply)
      modifies this
      ensures !loading
      ensures reply.Fetched? ==> contacts == reply.data && error == old(error)
      ensures reply.FetchRefused? ==> contacts == old(contacts) && error == Some(FetchFailed)
      ensures reply.FetchNetworkError? ==> contacts == old(contacts) && error == Some(BackendDown)
      ensures old(error).Some? ==> CurrentView().ErrorView?
    {
      loading := false;
      match reply
      case Fetched(data) =>
        contacts := data;
      case FetchRefused =>
        error := Some(FetchFailed);
      case FetchNetworkError =>
        error := Some(BackendDown);
    }

    /** `handleContactAdded`: the new contact goes first, the others follow in order. */
    method ContactAdded(c: Contact)
      modifies this
      ensures contacts == [c] + old(contacts)
      ensures loading == old(loading) && error == old(error)
    {
      contacts := [c] + contacts;
    }

    /** `handleContactDeleted`: drop every contact with that identifier. */
    method ContactDeleted(id: Id)
      modifies this
      ensures contacts == Without(old(contacts), id)
      ensures loading == old(loading) && error == old(error)
    {
      contacts := Without(contacts, id);
    }
  }
}

=== FILE: contact_form.dfy ===
/**
 * The submission form (frontend/src/components/ContactForm.jsx): its own
 * checks before sending, the state it keeps (the four inputs, the error
 * messages on display, the in-flight flag, the success banner) and how it
 * reacts to the server's reply.
 *
 * The client's checks differ from the schema's: the name has no upper bound,
 * the email and phone patterns are matched against the raw input rather than the
 * trimmed one, and the message length is that of the raw input.
 */
module ContactFormModel {
  import opened Wrappers
  import opened Text
  import opened Patterns
  import opened ContactSchema
  import opened ContactRoutes

  /** The four controlled inputs. */
  datatype FormData = FormData(name: string, email: string, phone: string, message: string)

  const EmptyForm := FormData("", "", "", "")

  const ClientNameTooShort := "Name must be at least 2 characters"
  const SubmittedMessage := "Contact submitted successfully!"
  const SubmitFailed := "Failed to submit contact"
  const NetworkFailure := "Network error. Please try again."

  /** `formData[name]`. */
  function Get(d: FormData, f: Field): string {
    match f
    case Name => d.name
    case Email => d.email
    case Phone => d.phone
    case Message => d.message
  }

  /** `{ ...prev, [name]: value }`. */
  function SetField(d: FormData, f: Field, v: string): (r: FormData)
    ensures Get(r, f) == v
    ensures forall g :: g != f ==> Get(r, g) == Get(d, g)
  {
    match f
    case Name => d.(name := v)
    case Email => d.(email := v)
    case Phone => d.(phone := v)
    case Message => d.(message := v)
  }

  /** The name must hold at least two UTF-16 code units once trimmed; no upper bound is checked. */
  function ClientNameError(s: string): (e: Option<string>)
    ensures e == None <==> Utf16Length(Trim(s)) >= NameMin
    ensures e == Some(NameRequired) <==> Trim(s) == ""
    ensures e == None || e == Some(NameRequired) || e == Some(ClientNameTooShort)
  {
    if Trim(s) == "" then Some(NameRequired)
    else if Utf16Length(Trim(s)) < NameMin then Some(ClientNameTooShort)
    else None
  }

  /** The email pattern is matched against the input as typed, neither trimmed nor lower-cased. */
  function ClientEmailError(s: string): (e: Option<string>)
    ensures e == None <==> Trim(s) != "" && MatchEmail(s)
    ensures e == Some(EmailRequired) <==> Trim(s) == ""
    ensures e == None || e == Some(EmailRequired) || e == Some(EmailInvalid)
  {
    if Trim(s) == "" then Some(EmailRequired)
    else if !MatchEmail(s) then Some(EmailInvalid)
    else None
  }

  /** The phone pattern is matched against the input as typed. */
  function ClientPhoneError(s: string): (e: Option<string>)
    ensures e == None <==> Trim(s) != "" && forall i :: 0 <= i < |s| ==> IsPhoneChar(s[i])
    ensures e == Some(PhoneRequired) <==> Trim(s) == ""
    ensures e == None || e == Some(PhoneRequired) || e == Some(PhoneInvalid)
  {
    if Trim(s) == "" then Some(PhoneRequired)
    else if !MatchPhone(s) then Some(PhoneInvalid)
    else None
  }

  /** An empty message is falsy and skips the check; the raw length counts. */
  function ClientMessageError(s: string): (e: Option<string>)
    ensures e == None <==> Utf16Length(s) <= MessageMax
    ensures e == None || e == Some(MessageTooLong)
  {
    if s != "" && Utf16Length(s) > MessageMax then Some(MessageTooLong) else None
  }

  /** One field's client error, by field. */
  function ClientFieldError(d: FormData, f: Field): Option<string> {
    match f
    case Name => ClientNameError(d.name)
    case Email => ClientEmailError(d.email)
    case Phone => ClientPhoneError(d.phone)
    case Message => ClientMessageError(d.message)
  }

  /** `validateForm`'s `newErrors`: exactly the failing fields, each with its message. */
  function ClientErrors(d: FormData): (r: map<Field, string>)
    ensures forall f :: f in r <==> ClientFieldError(d, f).Some?
    ensures forall f :: f in r ==> r[f] == ClientFieldError(d, f).value
  {
    map f | f in {Name, Email, Phone, Message} && ClientFieldError(d, f).Some? :: ClientFieldError(d, f).value
  }

  /** `JSON.stringify(formData)`: all four keys are always sent. */
  function RequestBody(d: FormData): (body: map<string, string>)
    ensures body.Keys == {"name", "email", "phone", "message"}
  {
    map["name" := d.name, "email" := d.email, "phone" := d.phone, "message" := d.message]
  }

  /** The route reads all four fields of the body the form sends. */
  lemma RequestBodyPicked(d: FormData)
    ensures Pick(RequestBody(d)) == Candidate(Some(d.name), Some(d.email), Some(d.phone), Some(d.message))
  {
  }

  /** An address the client accepts is accepted by the schema too. */
  lemma ClientEmailAgrees(s: string)
    requires ClientEmailError(s) == None
    ensures EmailError(Some(s)) == None
  {
    EmailHasNoOuterSpace(s);
    TrimFacts(s);
    MatchEmailLower(s);
  }

  /** A phone number the client accepts is accepted by the schema too. */
  lemma ClientPhoneAgrees(s: string)
    requires ClientPhoneError(s) == None
    ensures PhoneError(Some(s)) == None
  {
    TrimFacts(s);
    var t := Trim(s);
    forall i | 0 <= i < |t| ensures IsPhoneChar(t[i]) {
      var j :| 0 <= j < |s| && s[j] == t[i];
    }
  }

  /** A form with no client errors passes each of the client's field checks. */
  lemma ClientAcceptedFields(d: FormData)
    requires ClientErrors(d) == map[]
    ensures ClientNameError(d.name) == None && ClientEmailError(d.email) == None
    ensures ClientPhoneError(d.phone) == None && ClientMessageError(d.message) == None
  {
    assert ClientFieldError(d, Name) == None && ClientFieldError(d, Email) == None;
    assert ClientFieldError(d, Phone) == None && ClientFieldError(d, Message) == None;
  }

  /** When only the name can fail, the schema's errors are the name's error or none. */
  lemma OnlyNameFails(c: Candidate)
    requires EmailError(c.email) == None && PhoneError(c.phone) == None && MessageError(c.message) == None
    ensures ServerErrors(c) == if NameError(c.name) == None then map[] else map[Name := NameError(c.name).value]
  {
    if NameError(c.name) == None {
      AllFieldsPass(c);
    } else {
      NameAloneFails(c);
    }
  }

  lemma NameAloneFails(c: Candidate)
    requires NameError(c.name).Some?
    requires EmailError(c.email) == None && PhoneError(c.phone) == None && MessageError(c.message) == None
    ensures ServerErrors(c) == map[Name := NameError(c.name).value]
  {
    var r := ServerErrors(c);
    forall f ensures f in r <==> f == Name {
      assert FieldError(c, f).Some? <==> f == Name;
    }
    assert r.Keys == {Name};
  }

  /**
   * What the server makes of a form the client lets through: the schema
   * agrees on email, phone and message, and objects only to a name whose
   * trimmed length exceeds 100, which the client never checks.
   */
  lemma ClientAcceptedServerRejectsOnlyLongName(d: FormData)
    requires ClientErrors(d) == map[]
    ensures ServerErrors(Pick(RequestBody(d))) ==
      if Utf16Length(Trim(d.name)) > NameMax then map[Name := NameTooLong] else map[]
  {
    ClientAcceptedFields(d);
    var c := Pick(RequestBody(d));
    RequestBodyPicked(d);
    ClientEmailAgrees(d.email);
    ClientPhoneAgrees(d.phone);
    ClientNameAgrees(d.name);
    TrimUtf16Length(d.message);
    OnlyNameFails(c);
  }

  /** A name the client accepts fails on the server only by being too long. */
  lemma ClientNameAgrees(s: string)
    requires ClientNameError(s) == None
    ensures NameError(Some(s)) == if Utf16Length(Trim(s)) > NameMax then Some(NameTooLong) else None
  {
  }

  /** A form with no client errors, as `validateForm` builds it field by field. */
  lemma NoClientErrors(d: FormData)
    requires ClientNameError(d.name) == None && ClientEmailError(d.email) == None
    requires ClientPhoneError(d.phone) == None && ClientMessageError(d.message) == None
    ensures ClientErrors(d) == map[]
  {
    forall f ensures ClientFieldError(d, f) == None {
    }
    assert ClientErrors(d).Keys == {};
  }

  /** A 101-letter name: long enough for the client, too long for the schema. */
  lemma LongName(n: string)
    requires n == seq(101, _ => 'a')
    ensures ClientNameError(n) == None && Utf16Length(Trim(n)) > NameMax
  {
    assert Trimmed(n);
    TrimFacts(n);
  }

  /** The sample address "user@example.com" passes the client check. */
  lemma ExampleEmailPassesClient(e: string)
    requires e == "user@example.com"
    ensures ClientEmailError(e) == None
  {
    assert e == "user" + "@" + "example.com";
    EmailAccepted("user", "example.com");
    EmailHasNoOuterSpace(e);
    TrimFacts(e);
  }

  /** The sample number "+1 (555) 123-4567" passes the client check. */
  lemma ExamplePhonePassesClient(p: string)
    requires p == "+1 (555) 123-4567"
    ensures ClientPhoneError(p) == None
  {
    PhoneAccepted(p);
    assert p[0] == '+';
    PhoneWithNonSpacePassesClient(p);
  }

  /** A string of phone characters that does not start with whitespace passes the client check. */
  lemma PhoneWithNonSpacePassesClient(p: string)
    requires MatchPhone(p) && !IsSpace(p[0])
    ensures ClientPhoneError(p) == None
  {
    TrimFacts(p);
  }

  /**
   * The gap in the client's checks, on a concrete form: a 101-letter name with
   * a valid email and phone passes `validateForm` and is rejected by the
   * schema with "Name cannot exceed 100 characters".
   */
  lemma LongNameGetsPastClient(d: FormData)
    requires d == FormData(seq(101, _ => 'a'), "user@example.com", "+1 (555) 123-4567", "")
    ensures ClientErrors(d) == map[]
    ensures ServerErrors(Pick(RequestBody(d))) == map[Name := NameTooLong]
  {
    LongName(d.name);
    ExampleEmailPassesClient(d.email);
    ExamplePhonePassesClient(d.phone);
    NoClientErrors(d);
    ClientAcceptedServerRejectsOnlyLongName(d);
  }

  /** Where the form shows an error: under a field, or above the form for `submit`. */
  datatype ErrorKey = Of(field: Field) | Submit

  function Lift(m: map<Field, string>): (r: map<ErrorKey, string>)
    ensures forall k :: k in r <==> k.Of? && k.field in m
    ensures forall f :: f in m ==> r[Of(f)] == m[f]
  {
    map f | f in m :: Of(f) := m[f]
  }

  /** Editing a field blanks its message if one is shown, but keeps its key. */
  function ClearedError(errors: map<ErrorKey, string>, k: ErrorKey): (r: map<ErrorKey, string>)
    ensures r.Keys == errors.Keys
    ensures k in r ==> r[k] == ""
    ensures forall j :: j in errors && j != k ==> r[j] == errors[j]
  {
    if k in errors && errors[k] != "" then errors[k := ""] else errors
  }

  /** The errors after a run of edits, one field after another. */
  function AfterEdits(errors: map<ErrorKey, string>, edits: seq<Field>): map<ErrorKey, string> {
    if edits == [] then errors else AfterEdits(ClearedError(errors, Of(edits[0])), edits[1..])
  }

  /**
   * No run of edits removes an error key, so once `validateForm` or the
   * server has reported anything, `isFormValid` stays false for the rest
   * of the page's life.
   */
  lemma {:induction false} EditsKeepErrorKeys(errors: map<ErrorKey, string>, edits: seq<Field>)
    ensures AfterEdits(errors, edits).Keys == errors.Keys
  {
    if edits != [] {
      EditsKeepErrorKeys(ClearedError(errors, Of(edits[0])), edits[1..]);
    }
  }

  /** The JSON the form receives for its POST, or a failure of `fetch` or of the JSON parse. */
  datatype SubmitReply =
    | Accepted(data: Contact)
    | Refused(errors: Option<map<Field, string>>, message: Option<string>)
    | NetworkError

  /** The reply a route response turns into on the client. */
  function ReplyFor(res: Response): (reply: SubmitReply)
    ensures reply.Accepted? <==> res.body.Saved?
    ensures res.body.Saved? ==> reply == Accepted(res.body.data)
    ensures res.body.Invalid? ==> reply == Refused(Some(res.body.errors), res.body.Message())
    ensures reply.Refused? && reply.errors.None? ==> reply.message == res.body.Message()
  {
    match res.body
    case Saved(k) => Accepted(k)
    case Invalid(errors) => Refused(Some(errors), res.body.Message())
    case _ => Refused(None, res.body.Message())
  }

  /**
   * A valid submission with the database up is accepted, and the contact
   * handed to the parent is the record the route stored: the submitted
   * values, normalised, under the next identifier and stamped with the
   * request time.
   */
  lemma ValidSubmissionAccepted(s: Store, body: map<string, string>, now: int)
    requires ServerErrors(Pick(body)) == map[]
    ensures ReplyFor(PostOutcome(s, body, now, Up).res) == Accepted(Build(Pick(body), s.nextId, now))
    ensures PostOutcome(s, body, now, Up).store.contacts[s.nextId] == Build(Pick(body), s.nextId, now)
  {
  }

  /**
   * The errors shown after a refusal: the server's per-field errors when the
   * reply has an `errors` object (even an empty one), else one `submit`
   * error holding the reply's message, or a fallback when that is absent
   * or empty.
   */
  function RefusalErrors(errors: Option<map<Field, string>>, message: Option<string>): (r: map<ErrorKey, string>)
    ensures errors.Some? ==> r == Lift(errors.value)
    ensures errors.None? ==> r.Keys == {Submit}
    ensures errors.None? && message.Some? && message.value != "" ==> r[Submit] == message.value
    ensures errors.None? && (message.None? || message.value == "") ==> r[Submit] == SubmitFailed
  {
    match errors
    case Some(m) => Lift(m)
    case None =>
      map[Submit := if message.Some? && message.value != "" then message.value else SubmitFailed]
  }

  /** An invalid submission shows exactly the schema's messages under their fields. */
  lemma InvalidReplyShowsServerErrors(s: Store, body: map<string, string>, now: int, db: Db)
    requires ServerErrors(Pick(body)) != map[]
    ensures var reply := ReplyFor(PostOutcome(s, body, now, db).res);
      && reply.Refused?
      && RefusalErrors(reply.errors, reply.message) == Lift(ServerErrors(Pick(body)))
  {
  }

  /** A database failure shows "Server error" above the form. */
  lemma ServerFailureShowsMessage(s: Store, body: map<string, string>, now: int, reason: string)
    requires ServerErrors(Pick(body)) == map[]
    ensures var reply := ReplyFor(PostOutcome(s, body, now, Down(reason)).res);
      && reply.Refused?
      && RefusalErrors(reply.errors, reply.message) == map[Submit := "Server error"]
  {
  }

  /** The form component's state. */
  class ContactForm {
    var formData: FormData
    var errors: map<ErrorKey, string>
    var isSubmitting: bool
    var successMessage: string

    constructor ()
      ensures formData == EmptyForm && errors == map[] && !isSubmitting && successMessage == ""
    {
      formData := EmptyForm;
      errors := map[];
      isSubmitting := false;
      successMessage := "";
    }

    /** `isFormValid`: three non-blank required inputs and no error key at all, even a blanked one. */
    predicate IsFormValid()
      reads this
      ensures IsFormValid() <==>
                && errors == map[]
                && ClientNameError(formData.name) != Some(NameRequired)
                && ClientEmailError(formData.email) != Some(EmailRequired)
                && ClientPhoneError(formData.phone) != Some(PhoneRequired)
    {
      Trim(formData.name) != "" && Trim(formData.email) != "" && Trim(formData.phone) != "" && errors == map[]
    }

    /** Whether the submit button is enabled. */
    predicate SubmitEnabled()
      reads this
      ensures errors != map[] ==> !SubmitEnabled()
      ensures isSubmitting ==> !SubmitEnabled()
      ensures IsFormValid() && !isSubmitting ==> SubmitEnabled()
    {
      IsFormValid() && !isSubmitting
    }

    /**
     * `handleChange`: store the value, blank the field's message, hide the
     * success banner. Blanking keeps the key, so once any error has been
     * shown, typing never re-enables the submit button.
     */
    method HandleChange(f: Field, value: string)
      modifies this
      ensures formData == SetField(old(formData), f, value)
      ensures errors == ClearedError(old(errors), Of(f))
      ensures isSubmitting == old(isSubmitting) && successMessage == ""
      ensures old(errors) != map[] ==> !IsFormValid()
    {
      formData := SetField(formData, f, value);
      errors := ClearedError(errors, Of(f));
      successMessage := "";
      assert old(errors) != map[] ==> errors.Keys != {};
    }

    /**
     * The synchronous part of `handleSubmit`: run the client checks, show
     * their result, and when they pass mark the form as submitting and hand
     * back the request body.
     */
    method StartSubmit() returns (request: Option<map<string, string>>)
      requires SubmitEnabled()
      modifies this
      ensures errors == Lift(ClientErrors(formData))
      ensures formData == old(formData) && successMessage == old(successMessage)
      ensures ClientErrors(formData) == map[] ==> request == Some(RequestBody(formData)) && isSubmitting
      ensures ClientErrors(formData) != map[] ==> request == None && isSubmitting == old(isSubmitting)
      ensures request == None ==> !SubmitEnabled()
    {
      var newErrors := ClientErrors(formData);
      errors := Lift(newErrors);
      if newErrors != map[] {
        return None;
      }
      isSubmitting := true;
      request := Some(RequestBody(formData));
    }

    /**
     * The rest of `handleSubmit`, once the reply or a network failure is in:
     * on success clear the form and its errors and show the banner, handing
     * the new contact to the parent; otherwise show the refusal's errors.
     * The submitting flag is cleared either way.
     */
    method FinishSubmit(reply: SubmitReply) returns (added: Option<Contact>)
      requires isSubmitting
      modifies this
      ensures !isSubmitting
      ensures reply.Accepted? ==>
        && added == Some(reply.data)
        && formData == EmptyForm && errors == map[] && successMessage == SubmittedMessage
      ensures reply.Refused? ==>
        && added == None
        && formData == old(formData) && successMessage == old(successMessage)
        && errors == RefusalErrors(reply.errors, reply.message)
      ensures reply.NetworkError? ==>
        && added == None
        && formData == old(formData) && successMessage == old(successMessage)
        && errors == map[Submit := NetworkFailure]
    {
      isSubmitting := false;
      match reply
      case Accepted(data) =>
        successMessage := SubmittedMessage;
        formData := EmptyForm;
        errors := map[];
        added := Some(data);
      case Refused(errs, message) =>
        errors := RefusalErrors(errs, message);
        added := None;
      case NetworkError =>
        errors := map[Submit := NetworkFailure];
        added := None;
    }
  }
}

=== FILE: contact_list.dfy ===
/**
 * The contact table (frontend/src/components/ContactList.jsx): the sorted
 * copy it displays, the header clicks that choose the sort, the sort icons,
 * and the one-row delete confirmation.
 *
 * `localeCompare` is a parameter: any string comparator in the JavaScript
 * convention.
 */
module ContactListModel {
  import opened Wrappers
  import opened ContactSchema
  import opened Sorting
  import opened ContactRoutes

  /** The sortable columns. */
  datatype SortKey = ByName | ByEmail | ByPhone | ByCreatedAt

  datatype Direction = Asc | Desc

  datatype SortConfig = SortConfig(key: SortKey, direction: Direction)

  /** Newest first until a header is clicked. */
  const InitialSort := SortConfig(ByCreatedAt, Desc)

  /** `handleSort`: a click on the active ascending column turns it descending; any other click sorts ascending. */
  function NextSort(prev: SortConfig, k: SortKey): (r: SortConfig)
    ensures r.key == k
    ensures r.direction == Desc <==> prev.key == k && prev.direction == Asc
  {
    SortConfig(k, if prev.key == k && prev.direction == Asc then Desc else Asc)
  }

  /** Clicking the same header again flips the direction; a first click on a column sorts it ascending. */
  lemma RepeatedClicksAlternate(c: SortConfig, k: SortKey)
    ensures NextSort(NextSort(c, k), k).direction != NextSort(c, k).direction
    ensures c.key != k ==> NextSort(c, k) == SortConfig(k, Asc)
    ensures NextSort(NextSort(NextSort(c, k), k), k) == NextSort(c, k)
  {
  }

  /** The initial newest-first order is left by the first click on the date header, which sorts oldest first. */
  lemma FirstDateClick()
    ensures NextSort(InitialSort, ByCreatedAt) == SortConfig(ByCreatedAt, Asc)
  {
  }

  /** The text a string column sorts on. */
  function ColumnText(c: Contact, k: SortKey): string
    requires k != ByCreatedAt
  {
    match k
    case ByName => c.name
    case ByEmail => c.email
    case ByPhone => c.phone
  }

  /** A string comparator that orders all strings consistently, as `localeCompare` does. */
  ghost predicate Collation(collate: (string, string) -> int) {
    Total(collate) && Transitive(collate)
  }

  /**
   * The comparator of `sortedContacts`: timestamp difference for the date
   * column, `localeCompare` for the others, arguments swapped when descending.
   */
  function Comparator(config: SortConfig, collate: (string, string) -> int): (cmp: (Contact, Contact) -> int)
    ensures config.key == ByCreatedAt ==> forall a, b :: cmp(a, b) < 0 <==>
      if config.direction == Asc then a.createdAt < b.createdAt else b.createdAt < a.createdAt
  {
    match config.key
    case ByCreatedAt =>
      if config.direction == Asc then (a: Contact, b: Contact) => a.createdAt - b.createdAt
      else (a: Contact, b: Contact) => b.createdAt - a.createdAt
    case _ =>
      if config.direction == Asc then (a: Contact, b: Contact) => collate(ColumnText(a, config.key), ColumnText(b, config.key))
      else (a: Contact, b: Contact) => collate(ColumnText(b, config.key), ColumnText(a, config.key))
  }

  /** Descending order compares with the ascending comparator's arguments swapped, in every column. */
  lemma DescendingSwapsArguments(key: SortKey, collate: (string, string) -> int)
    ensures forall a, b :: Comparator(SortConfig(key, Desc), collate)(a, b) == Comparator(SortConfig(key, Asc), collate)(b, a)
  {
  }

  /** Over a consistent collation, every sort configuration gives a consistent comparator. */
  lemma ComparatorConsistent(config: SortConfig, collate: (string, string) -> int)
    requires config.key == ByCreatedAt || Collation(collate)
    ensures Total(Comparator(config, collate)) && Transitive(Comparator(config, collate))
  {
    var cmp := Comparator(config, collate);
    if config.key == ByCreatedAt {
      if config.direction == Asc {
        assert forall a, b :: cmp(a, b) == a.createdAt - b.createdAt;
      } else {
        assert forall a, b :: cmp(a, b) == b.createdAt - a.createdAt;
      }
    } else {
      var k := config.key;
      if config.direction == Asc {
        assert forall a, b :: cmp(a, b) == collate(ColumnText(a, k), ColumnText(b, k));
        forall a, b, c | cmp(a, b) <= 0 && cmp(b, c) <= 0 ensures cmp(a, c) <= 0 {
          assert collate(ColumnText(a, k), ColumnText(b, k)) <= 0 && collate(ColumnText(b, k), ColumnText(c, k)) <= 0;
        }
      } else {
        assert forall a, b :: cmp(a, b) == collate(ColumnText(b, k), ColumnText(a, k));
        forall a, b, c | cmp(a, b) <= 0 && cmp(b, c) <= 0 ensures cmp(a, c) <= 0 {
          assert collate(ColumnText(b, k), ColumnText(a, k)) <= 0 && collate(ColumnText(c, k), ColumnText(b, k)) <= 0;
        }
      }
    }
  }

  /** `[...contacts].sort(...)`: a sorted copy; the prop itself is left in its order. */
  function SortedContacts(contacts: seq<Contact>, config: SortConfig, collate: (string, string) -> int): (r: seq<Contact>)
    ensures multiset(r) == multiset(contacts)
  {
    SortBy(contacts, Comparator(config, collate))
  }

  /** The date column: oldest first when ascending, newest first when descending. */
  lemma SortedByDate(contacts: seq<Contact>, d: Direction, collate: (string, string) -> int)
    ensures var r := SortedContacts(contacts, SortConfig(ByCreatedAt, d), collate);
      forall i, j :: 0 <= i < j < |r| ==> if d == Asc then r[i].createdAt <= r[j].createdAt else r[i].createdAt >= r[j].createdAt
  {
    var config := SortConfig(ByCreatedAt, d);
    var r := SortedContacts(contacts, config, collate);
    ComparatorConsistent(config, collate);
    SortBySorted(contacts, Comparator(config, collate));
    forall i, j | 0 <= i < j < |r|
      ensures if d == Asc then r[i].createdAt <= r[j].createdAt else r[i].createdAt >= r[j].createdAt
    {
      assert Comparator(config, collate)(r[i], r[j]) <= 0;
    }
  }

  /** A text column: ordered by the collation, ascending or descending. */
  lemma SortedByText(contacts: seq<Contact>, k: SortKey, d: Direction, collate: (string, string) -> int)
    requires k != ByCreatedAt && Collation(collate)
    ensures var r := SortedContacts(contacts, SortConfig(k, d), collate);
      forall i, j :: 0 <= i < j < |r| ==>
        if d == Asc then collate(ColumnText(r[i], k), ColumnText(r[j], k)) <= 0
        else collate(ColumnText(r[j], k), ColumnText(r[i], k)) <= 0
  {
    var config := SortConfig(k, d);
    var r := SortedContacts(contacts, config, collate);
    ComparatorConsistent(config, collate);
    SortBySorted(contacts, Comparator(config, collate));
    forall i, j | 0 <= i < j < |r|
      ensures if d == Asc then collate(ColumnText(r[i], k), ColumnText(r[j], k)) <= 0
        else collate(ColumnText(r[j], k), ColumnText(r[i], k)) <= 0
    {
      assert Comparator(config, collate)(r[i], r[j]) <= 0;
    }
  }

  const Unsorted := "\U{21C5}"
  const Ascending := "\U{2191}"
  const Descending := "\U{2193}"

  /** `getSortIcon`. */
  function Icon(config: SortConfig, k: SortKey): (icon: string)
    ensures icon == Unsorted <==> config.key != k
    ensures icon == Ascending <==> config.key == k && config.direction == Asc
    ensures icon == Descending <==> config.key == k && config.direction.Desc?
  {
    assert Unsorted != Ascending by { assert Unsorted[0] != Ascending[0]; }
    assert Unsorted != Descending by { assert Unsorted[0] != Descending[0]; }
    assert Ascending != Descending by { assert Ascending[0] != Descending[0]; }
    if config.key != k then Unsorted
    else if config.direction == Asc then Ascending
    else Descending
  }

  /** After a click exactly the clicked column shows an arrow. */
  lemma ClickedColumnShowsArrow(c: SortConfig, k: SortKey, other: SortKey)
    requires other != k
    ensures Icon(NextSort(c, k), k) != Unsorted
    ensures Icon(NextSort(c, k), other) == Unsorted
  {
  }

  /** The JSON the table receives for its DELETE, or a failure of `fetch` or of the JSON parse. */
  datatype DeleteReply = DeleteSucceeded | DeleteRefused(message: Option<string>) | DeleteNetworkError

  /** The reply a DELETE route response turns into on the client. */
  function DeleteReplyFor(res: Response): (reply: DeleteReply)
    ensures reply.DeleteSucceeded? <==> res.body.Success()
  {
    if res.body.Success() then DeleteSucceeded else DeleteRefused(res.body.Message())
  }

  /** Confirming the deletion of a stored contact makes the table report it as deleted. */
  lemma ConfirmedDeleteSucceeds(s: Store, id: Id)
    requires id in s.contacts
    ensures DeleteReplyFor(DeleteOutcome(s, WellFormed(id), Up).res) == DeleteSucceeded
  {
  }

  /** A contact that is already gone is refused with "Contact not found". */
  lemma StaleDeleteRefused(s: Store, id: Id)
    requires id !in s.contacts
    ensures DeleteReplyFor(DeleteOutcome(s, WellFormed(id), Up).res) == DeleteRefused(Some("Contact not found"))
  {
  }

  /** The table component's state. */
  class ContactList {
    var sortConfig: SortConfig
    /** The row whose deletion awaits confirmation, if any: one slot, so at most one row. */
    var deleteConfirm: Option<Id>

    constructor ()
      ensures sortConfig == InitialSort && deleteConfirm == None
    {
      sortConfig := InitialSort;
      deleteConfirm := None;
    }

    method HandleSort(k: SortKey)
      modifies this
      ensures sortConfig == NextSort(old(sortConfig), k) && deleteConfirm == old(deleteConfirm)
    {
      sortConfig := NextSort(sortConfig, k);
    }

    /** The Delete button of a row arms that row, disarming any other. */
    method Arm(id: Id)
      modifies this
      ensures deleteConfirm == Some(id) && sortConfig == old(sortConfig)
    {
      deleteConfirm := Some(id);
    }

    /** The cancel button of the armed row. */
    method Cancel()
      modifies this
      ensures deleteConfirm == None && sortConfig == old(sortConfig)
    {
      deleteConfirm := None;
    }

    /**
     * The confirm button, shown only on the armed row, requests the deletion
     * of that row's contact; `handleDelete` then reports it to the parent and
     * disarms on success, and otherwise leaves everything as it was.
     */
    method Confirm(reply: DeleteReply) returns (request: Id, deleted: Option<Id>)
      requires deleteConfirm.Some?
      modifies this
      ensures request == old(deleteConfirm).value && sortConfig == old(sortConfig)
      ensures reply.DeleteSucceeded? ==> deleted == Some(request) && deleteConfirm == None
      ensures !reply.DeleteSucceeded? ==> deleted == None && deleteConfirm == old(deleteConfirm)
    {
      request := deleteConfirm.value;
      if reply.DeleteSucceeded? {
        deleted := Some(request);
        deleteConfirm := None;
      } else {
        deleted := None;
      }
    }
  }
}

=== FILE: contact_routes.dfy ===
/**
 * The contacts HTTP API (backend/routes/contacts.js) over an in-memory
 * collection: POST /api/contacts, GET /api/contacts and
 * DELETE /api/contacts/:id.
 *
 * The database is a map from identifier to stored record; identifiers are
 * handed out in increasing order, so their order is the insertion order. A
 * database operation that fails is modelled by a `Db` parameter carrying the
 * driver's error message.
 */
module ContactRoutes {
  import opened Wrappers
  import opened Text
  import opened ContactSchema
  import opened Sorting

  /** The JSON bodies the routes send. */
  datatype Body =
    | Saved(data: Contact)
    | Invalid(errors: map<Field, string>)
    | Failed(error: string)
    | Listed(count: nat, contacts: seq<Contact>)
    | Removed
    | Missing
  {
    /** The `success` flag. */
    predicate Success() {
      Saved? || Listed? || Removed?
    }

    /** The `message` property, where the body has one. */
    function Message(): Option<string> {
      match this
      case Saved(_) => Some("Contact saved successfully")
      case Invalid(_) => Some("Validation error")
      case Failed(_) => Some("Server error")
      case Listed(_, _) => None
      case Removed => Some("Contact deleted successfully")
      case Missing => Some("Contact not found")
    }
  }

  datatype Response = Response(status: int, body: Body)

  /** `success` is set exactly on the 2xx responses. */
  predicate Consistent(r: Response) {
    r.body.Success() <==> 200 <= r.status < 300
  }

  /** Whether the database answers, or the message of the error it raises. */
  datatype Db = Up | Down(reason: string)

  /** The `:id` path parameter: a well-formed identifier, or one that fails the cast with the given message. */
  datatype IdParam = WellFormed(id: Id) | Malformed(castError: string)

  /** The destructuring of `req.body`: only the four schema keys are read. */
  function Pick(body: map<string, string>): (c: Candidate)
    ensures c.name == if "name" in body then Some(body["name"]) else None
    ensures c.email == if "email" in body then Some(body["email"]) else None
    ensures c.phone == if "phone" in body then Some(body["phone"]) else None
    ensures c.message == if "message" in body then Some(body["message"]) else None
  {
    Candidate(
      if "name" in body then Some(body["name"]) else None,
      if "email" in body then Some(body["email"]) else None,
      if "phone" in body then Some(body["phone"]) else None,
      if "message" in body then Some(body["message"]) else None)
  }

  /** Any other key in the request body has no effect. */
  lemma PickIgnoresOtherKeys(body: map<string, string>, key: string, v: string)
    requires key !in {"name", "email", "phone", "message"}
    ensures Pick(body[key := v]) == Pick(body)
    ensures Pick(body - {key}) == Pick(body)
  {
  }

  /** Every record's identifier is its key. */
  ghost predicate Keyed(m: map<Id, Contact>) {
    forall id :: id in m ==> m[id].id == id
  }

  /** The identifiers below `n` in use. */
  ghost function KeysBelow(m: map<Id, Contact>, n: nat): set<Id> {
    set id | id in m && id < n
  }

  /** The records with identifiers below `n`, oldest identifier first. */
  function InsertionOrder(m: map<Id, Contact>, n: nat): (r: seq<Contact>)
    ensures |r| <= n
  {
    if n == 0 then []
    else InsertionOrder(m, n - 1) + (if n - 1 in m then [m[n - 1]] else [])
  }

  /** Each stored record occurs exactly once in the insertion order, and nothing else does. */
  lemma {:induction false} InsertionOrderOccurrences(m: map<Id, Contact>, n: nat, c: Contact)
    requires Keyed(m)
    ensures multiset(InsertionOrder(m, n))[c] == if c.id < n && c.id in m && m[c.id] == c then 1 else 0
  {
    if n > 0 {
      var prev := InsertionOrder(m, n - 1);
      InsertionOrderOccurrences(m, n - 1, c);
      if n - 1 in m {
        assert InsertionOrder(m, n) == prev + [m[n - 1]];
        assert multiset(prev + [m[n - 1]])[c] == multiset(prev)[c] + multiset([m[n - 1]])[c];
        assert m[n - 1] == c ==> c.id == n - 1;
      } else {
        assert InsertionOrder(m, n) == prev;
      }
    }
  }

  /** The insertion order has one entry per identifier in use. */
  lemma {:induction false} InsertionOrderLength(m: map<Id, Contact>, n: nat)
    ensures |InsertionOrder(m, n)| == |KeysBelow(m, n)|
  {
    if n > 0 {
      InsertionOrderLength(m, n - 1);
      if n - 1 in m {
        assert KeysBelow(m, n) == KeysBelow(m, n - 1) + {n - 1};
      } else {
        assert KeysBelow(m, n) == KeysBelow(m, n - 1);
      }
    }
  }

  /** `Contact.find().sort({ createdAt: -1 })`'s order: a negative result puts `a` first. */
  function NewerFirst(a: Contact, b: Contact): int {
    b.createdAt - a.createdAt
  }

  /** The newest-first comparator orders all records consistently. */
  lemma NewerFirstConsistent()
    ensures Total(NewerFirst) && Transitive(NewerFirst)
  {
  }

  /** The listing GET returns: every stored record, newest first, ties in insertion order. */
  function Listing(m: map<Id, Contact>, n: nat): (l: seq<Contact>)
    ensures multiset(l) == multiset(InsertionOrder(m, n))
  {
    SortBy(InsertionOrder(m, n), NewerFirst)
  }

  /**
   * The listing is in descending `createdAt` order and holds each stored
   * record exactly once; its length is the number of stored records.
   */
  lemma ListingFacts(m: map<Id, Contact>, n: nat)
    requires Keyed(m) && forall id :: id in m ==> id < n
    ensures forall i, j :: 0 <= i < j < |Listing(m, n)| ==> Listing(m, n)[i].createdAt >= Listing(m, n)[j].createdAt
    ensures forall c :: multiset(Listing(m, n))[c] == if c.id in m && m[c.id] == c then 1 else 0
    ensures |Listing(m, n)| == |m|
  {
    ListingNewestFirst(m, n);
    var l := Listing(m, n);
    forall c: Contact ensures multiset(l)[c] == if c.id in m && m[c.id] == c then 1 else 0 {
      InsertionOrderOccurrences(m, n, c);
    }
    InsertionOrderLength(m, n);
    assert KeysBelow(m, n) == m.Keys;
  }

  /** The listing is in descending `createdAt` order and is a permutation of the insertion order. */
  lemma ListingNewestFirst(m: map<Id, Contact>, n: nat)
    ensures forall i, j :: 0 <= i < j < |Listing(m, n)| ==> Listing(m, n)[i].createdAt >= Listing(m, n)[j].createdAt
    ensures multiset(Listing(m, n)) == multiset(InsertionOrder(m, n))
  {
    var l := Listing(m, n);
    NewerFirstConsistent();
    SortBySorted(InsertionOrder(m, n), NewerFirst);
    forall i, j | 0 <= i < j < |l| ensures l[i].createdAt >= l[j].createdAt {
      assert NewerFirst(l[i], l[j]) <= 0;
    }
  }

  /** A record is listed exactly when it is stored. */
  lemma ListingMembers(m: map<Id, Contact>, n: nat, c: Contact)
    requires Keyed(m) && forall id :: id in m ==> id < n
    ensures c in Listing(m, n) <==> c.id in m && m[c.id] == c
  {
    ListingFacts(m, n);
    assert c in Listing(m, n) <==> multiset(Listing(m, n))[c] > 0;
  }

  /** The collection's contents and the identifier the next insert receives. */
  datatype Store = Store(contacts: map<Id, Contact>, nextId: nat)

  /** Every key is below the next identifier, names its record, and the record satisfies the schema. */
  ghost predicate StoreInvariant(s: Store) {
    && Keyed(s.contacts)
    && (forall id :: id in s.contacts ==> id < s.nextId)
    && (forall id :: id in s.contacts ==> Conforms(s.contacts[id]))
  }

  /** What a route answers and the collection it leaves behind. */
  datatype Outcome = Outcome(res: Response, store: Store)

  /**
   * POST /api/contacts: validation runs before the write, so an invalid body
   * gets 400 with every failing field whatever the database's state; a valid
   * one is stored under a fresh identifier and echoed with 201.
   */
  function PostOutcome(s: Store, body: map<string, string>, now: int, db: Db): (o: Outcome)
    ensures Consistent(o.res)
    ensures o.res.status == 400 <==> ServerErrors(Pick(body)) != map[]
    ensures o.res.status == 201 <==> ServerErrors(Pick(body)) == map[] && db.Up?
    ensures o.res.status == 500 <==> ServerErrors(Pick(body)) == map[] && db.Down?
    ensures o.res.status != 201 ==> o.store == s
  {
    var candidate := Pick(body);
    var errors := ServerErrors(candidate);
    if errors != map[] then Outcome(Response(400, Invalid(errors)), s)
    else if db.Down? then Outcome(Response(500, Failed(db.reason)), s)
    else
      var k := Build(candidate, s.nextId, now);
      Outcome(Response(201, Saved(k)), Store(s.contacts[k.id := k], s.nextId + 1))
  }

  /** GET /api/contacts: every stored contact, newest first, with their count. */
  function GetResponse(s: Store, db: Db): (r: Response)
    ensures Consistent(r)
    ensures r.status == 200 <==> db.Up?
    ensures db.Up? ==> r.body.Listed? && r.body.count == |r.body.contacts| == |InsertionOrder(s.contacts, s.nextId)|
    ensures db.Down? ==> r == Response(500, Failed(db.reason))
  {
    if db.Down? then Response(500, Failed(db.reason))
    else
      var listing := Listing(s.contacts, s.nextId);
      Response(200, Listed(|listing|, listing))
  }

  /**
   * DELETE /api/contacts/:id: a malformed identifier or a database error is a
   * 500 and an unknown identifier a 404; otherwise the record is removed.
   */
  function DeleteOutcome(s: Store, param: IdParam, db: Db): (o: Outcome)
    ensures Consistent(o.res)
    ensures o.store.nextId == s.nextId
    ensures o.res.status == 200 <==> param.WellFormed? && db.Up? && param.id in s.contacts
    ensures o.res.status == 404 <==> param.WellFormed? && db.Up? && param.id !in s.contacts
    ensures o.res.status == 200 ==> param.WellFormed? && o.store.contacts == s.contacts - {param.id}
    ensures o.res.status != 200 ==> o.store == s
    ensures param.Malformed? ==> o.res == Response(500, Failed(param.castError))
    ensures param.WellFormed? && db.Down? ==> o.res == Response(500, Failed(db.reason))
    ensures param.WellFormed? && db.Up? && param.id !in s.contacts ==> o.res == Response(404, Missing)
    ensures o.res.status == 200 ==> o.res.body == Removed
  {
    match param
    case Malformed(castError) => Outcome(Response(500, Failed(castError)), s)
    case WellFormed(id) =>
      if db.Down? then Outcome(Response(500, Failed(db.reason)), s)
      else if id !in s.contacts then Outcome(Response(404, Missing), s)
      else Outcome(Response(200, Removed), s.(contacts := s.contacts - {id}))
  }

  /** An invalid body is answered with exactly the schema's errors and changes nothing. */
  lemma PostRejectsInvalid(s: Store, body: map<string, string>, now: int, db: Db)
    requires ServerErrors(Pick(body)) != map[]
    ensures PostOutcome(s, body, now, db).res.status == 400
    ensures PostOutcome(s, body, now, db).res.body.errors == ServerErrors(Pick(body))
    ensures PostOutcome(s, body, now, db).store == s
  {
  }

  /**
   * A valid body with the database up adds exactly one record, under the
   * unused next identifier, holding the normalised fields and the time of
   * the request; every other record stays as it was.
   */
  lemma PostStoresValid(s: Store, body: map<string, string>, now: int)
    requires StoreInvariant(s) && ServerErrors(Pick(body)) == map[]
    ensures var o := PostOutcome(s, body, now, Up);
      && o.res.status == 201
      && s.nextId !in s.contacts
      && o.store.contacts.Keys == s.contacts.Keys + {s.nextId}
      && (forall id :: id in s.contacts ==> o.store.contacts[id] == s.contacts[id])
      && o.res.body.data == o.store.contacts[s.nextId]
      && o.res.body.data == Build(Pick(body), s.nextId, now)
  {
    PostStores(s, body, now);
  }

  /**
   * A contact created with a valid body is listed by the next GET with the
   * submitted values, trimmed and with the email lower-cased.
   */
  lemma CreatedThenListed(s: Store, body: map<string, string>, now: int)
    requires StoreInvariant(s) && ServerErrors(Pick(body)) == map[]
    ensures var k := PostOutcome(s, body, now, Up).res.body.data;
      && k in GetResponse(PostOutcome(s, body, now, Up).store, Up).body.contacts
      && "name" in body && "email" in body && "phone" in body
      && k.name == Trim(body["name"])
      && k.email == Lower(Trim(body["email"]))
      && k.phone == Trim(body["phone"])
      && k.message == (if "message" in body then Some(Trim(body["message"])) else None)
      && k.createdAt == now
  {
    var o := PostOutcome(s, body, now, Up);
    PostStoresValid(s, body, now);
    PostKeepsInvariant(s, body, now, Up);
    NoFieldErrors(Pick(body));
    ListingMembers(o.store.contacts, o.store.nextId, o.res.body.data);
  }

  /** Storing a conforming record under the next identifier keeps the invariant. */
  lemma InsertKeepsInvariant(s: Store, k: Contact)
    requires StoreInvariant(s) && k.id == s.nextId && Conforms(k)
    ensures StoreInvariant(Store(s.contacts[k.id := k], s.nextId + 1))
  {
  }

  /** POST keeps the collection's invariant: whatever it stores satisfies the schema. */
  lemma PostKeepsInvariant(s: Store, body: map<string, string>, now: int, db: Db)
    requires StoreInvariant(s)
    ensures StoreInvariant(PostOutcome(s, body, now, db).store)
  {
    var c := Pick(body);
    if ServerErrors(c) == map[] && db.Up? {
      var k := Build(c, s.nextId, now);
      BuildConforms(c, s.nextId, now);
      InsertKeepsInvariant(s, k);
      PostStores(s, body, now);
    } else {
      PostKeeps(s, body, now, db);
    }
  }

  /** A valid body with the database up stores the built record under the next identifier. */
  lemma PostStores(s: Store, body: map<string, string>, now: int)
    requires ServerErrors(Pick(body)) == map[]
    ensures var k := Build(Pick(body), s.nextId, now);
      PostOutcome(s, body, now, Up).store == Store(s.contacts[k.id := k], s.nextId + 1)
  {
  }

  /** An invalid body or a database error leaves the collection as it was. */
  lemma PostKeeps(s: Store, body: map<string, string>, now: int, db: Db)
    requires ServerErrors(Pick(body)) != map[] || db.Down?
    ensures PostOutcome(s, body, now, db).store == s
  {
  }

  /** Removing any record keeps the invariant. */
  lemma RemoveKeepsInvariant(s: Store, id: Id)
    requires StoreInvariant(s)
    ensures StoreInvariant(s.(contacts := s.contacts - {id}))
  {
  }

  /** DELETE keeps the collection's invariant. */
  lemma DeleteKeepsInvariant(s: Store, param: IdParam, db: Db)
    requires StoreInvariant(s)
    ensures StoreInvariant(DeleteOutcome(s, param, db).store)
  {
  }

  /** Every response sets `success` exactly when its status is 2xx. */
  lemma ResponsesConsistent(s: Store, body: map<string, string>, now: int, param: IdParam, db: Db)
    ensures Consistent(PostOutcome(s, body, now, db).res)
    ensures Consistent(GetResponse(s, db))
    ensures Consistent(DeleteOutcome(s, param, db).res)
  {
  }

  /** The listing: in descending `createdAt` order, each stored record exactly once, counted. */
  lemma GetListsAll(s: Store)
    requires StoreInvariant(s)
    ensures GetResponse(s, Up).status == 200
    ensures GetResponse(s, Up).body.count == |GetResponse(s, Up).body.contacts| == |s.contacts|
    ensures forall c :: c in GetResponse(s, Up).body.contacts <==> c.id in s.contacts && s.contacts[c.id] == c
  {
    ListingFacts(s.contacts, s.nextId);
    forall c ensures c in GetResponse(s, Up).body.contacts <==> c.id in s.contacts && s.contacts[c.id] == c {
      ListingMembers(s.contacts, s.nextId, c);
    }
  }

  /**
   * Deletion: a well-formed identifier that is stored is removed and nothing
   * else is; one that is not stored gets 404; identifiers are never reused.
   */
  lemma DeleteRemovesOnly(s: Store, id: Id)
    ensures id in s.contacts ==>
      DeleteOutcome(s, WellFormed(id), Up) == Outcome(Response(200, Removed), s.(contacts := s.contacts - {id}))
    ensures id !in s.contacts ==>
      DeleteOutcome(s, WellFormed(id), Up) == Outcome(Response(404, Missing), s)
    ensures DeleteOutcome(s, WellFormed(id), Up).store.nextId == s.nextId
  {
  }

  /** Deleting the same identifier twice: the second attempt finds nothing. */
  lemma DeleteTwice(s: Store, id: Id)
    requires id in s.contacts
    ensures var first := DeleteOutcome(s, WellFormed(id), Up);
      && first.res.status == 200
      && DeleteOutcome(first.store, WellFormed(id), Up).res.status == 404
  {
  }

  /**
   * Two identical valid submissions are both stored, as two records that
   * differ only in identifier and timestamp.
   */
  lemma DuplicateSubmissions(s: Store, body: map<string, string>, t1: int, t2: int)
    requires StoreInvariant(s) && ServerErrors(Pick(body)) == map[]
    ensures var first := PostOutcome(s, body, t1, Up);
      var second := PostOutcome(first.store, body, t2, Up);
      && |second.store.contacts| == |s.contacts| + 2
      && first.res.body.data.(id := second.res.body.data.id, createdAt := t2) == second.res.body.data
  {
    var first := PostOutcome(s, body, t1, Up);
    PostStoresValid(s, body, t1);
    PostKeepsInvariant(s, body, t1, Up);
    PostStoresValid(first.store, body, t2);
    NoUniqueField(Pick(body), s.nextId, s.nextId + 1, t1, t2);
  }

  /** The contacts collection. */
  class ContactStore {
    var contacts: map<Id, Contact>
    var nextId: nat

    function State(): Store
      reads this
    {
      Store(contacts, nextId)
    }

    ghost predicate Valid()
      reads this
    {
      StoreInvariant(State())
    }

    constructor ()
      ensures Valid()
      ensures State() == Store(map[], 0)
    {
      contacts := map[];
      nextId := 0;
    }

    method Post(body: map<string, string>, now: int, db: Db) returns (res: Response)
      requires Valid()
      modifies this
      ensures Valid()
      ensures Outcome(res, State()) == PostOutcome(old(State()), body, now, db)
    {
      var candidate := Pick(body);
      var errors := ServerErrors(candidate);
      if errors != map[] {
        return Response(400, Invalid(errors));
      }
      if db.Down? {
        return Response(500, Failed(db.reason));
      }
      PostKeepsInvariant(State(), body, now, db);
      var k := Build(candidate, nextId, now);
      contacts := contacts[k.id := k];
      nextId := nextId + 1;
      res := Response(201, Saved(k));
    }

    method Get(db: Db) returns (res: Response)
      requires Valid()
      ensures res == GetResponse(State(), db)
    {
      if db.Down? {
        return Response(500, Failed(db.reason));
      }
      var listing := Listing(contacts, nextId);
      res := Response(200, Listed(|listing|, listing));
    }

    method Delete(param: IdParam, db: Db) returns (res: Response)
      requires Valid()
      modifies this
      ensures Valid()
      ensures Outcome(res, State()) == DeleteOutcome(old(State()), param, db)
    {
      match param
      case Malformed(castError) =>
        res := Response(500, Failed(castError));
      case WellFormed(id) =>
        if db.Down? {
          res := Response(500, Failed(db.reason));
        } else if id !in contacts {
          res := Response(404, Missing);
        } else {
          RemoveKeepsInvariant(State(), id);
          contacts := contacts - {id};
          res := Response(200, Removed);
        }
    }
  }
}

=== FILE: contact_schema.dfy ===
/**
 * The server's contact schema (backend/models/Contact.js): the stored record,
 * the normalising setters (trim, lowercase) and the field validators.
 *
 * The schema validates a path by running its validators in order (required
 * first, then minlength, maxlength or match) and reports the first one that
 * fails, so each field gets at most one message. A path that is absent and
 * not required is not validated.
 */
module ContactSchema {
  import opened Wrappers
  import opened Text
  import opened Patterns

  /** The four fields a client supplies. */
  datatype Field = Name | Email | Phone | Message

  /** Store-assigned identifier (`_id`); fresh naturals stand for ObjectIds. */
  type Id = nat

  /** A stored contact. `createdAt` is a timestamp in milliseconds. */
  datatype Contact = Contact(
    id: Id,
    name: string,
    email: string,
    phone: string,
    message: Option<string>,
    createdAt: int)

  /** The field values handed to the model; `None` is an absent or null value. */
  datatype Candidate = Candidate(
    name: Option<string>,
    email: Option<string>,
    phone: Option<string>,
    message: Option<string>)

  const NameRequired := "Name is required"
  const NameTooShort := "Name must be at least 2 characters long"
  const NameTooLong := "Name cannot exceed 100 characters"
  const EmailRequired := "Email is required"
  const EmailInvalid := "Please enter a valid email address"
  const PhoneRequired := "Phone number is required"
  const PhoneInvalid := "Please enter a valid phone number"
  const MessageTooLong := "Message cannot exceed 500 characters"

  const NameMin := 2
  const NameMax := 100
  const MessageMax := 500

  /** name: required, trim, minlength 2, maxlength 100. */
  function NameError(v: Option<string>): (e: Option<string>)
    ensures e == Some(NameRequired) <==> v.None? || Trim(v.value) == ""
    ensures e == Some(NameTooShort) <==> v.Some? && 0 < Utf16Length(Trim(v.value)) < NameMin
    ensures e == Some(NameTooLong) <==> v.Some? && Utf16Length(Trim(v.value)) > NameMax
    ensures e == None <==> v.Some? && NameMin <= Utf16Length(Trim(v.value)) <= NameMax
  {
    match v
    case None => Some(NameRequired)
    case Some(s) =>
      var t := Trim(s);
      if t == "" then Some(NameRequired)
      else if Utf16Length(t) < NameMin then Some(NameTooShort)
      else if Utf16Length(t) > NameMax then Some(NameTooLong)
      else None
  }

  /** email: required, trim, lowercase, match the email pattern. */
  function EmailError(v: Option<string>): (e: Option<string>)
    ensures e == Some(EmailRequired) <==> v.None? || Trim(v.value) == ""
    ensures e == None <==> v.Some? && MatchEmail(Lower(Trim(v.value)))
    ensures e == None || e == Some(EmailRequired) || e == Some(EmailInvalid)
  {
    match v
    case None => Some(EmailRequired)
    case Some(s) =>
      var t := Lower(Trim(s));
      if t == "" then Some(EmailRequired)
      else if !MatchEmail(t) then Some(EmailInvalid)
      else None
  }

  /** The email rule in terms of the address's shape: a value passes exactly when its normal form is an address. */
  lemma EmailRule(v: Option<string>)
    ensures EmailError(v) == None <==> v.Some? && EmailShape(Lower(Trim(v.value)))
  {
    if v.Some? {
      MatchEmailIsEmailShape(Lower(Trim(v.value)));
    }
  }

  /** phone: required, trim, match `^[\d\s\-\+\(\)]+$`. */
  function PhoneError(v: Option<string>): (e: Option<string>)
    ensures e == Some(PhoneRequired) <==> v.None? || Trim(v.value) == ""
    ensures e == None <==> (v.Some? && Trim(v.value) != ""
      && forall i :: 0 <= i < |Trim(v.value)| ==> IsPhoneChar(Trim(v.value)[i]))
    ensures e == None || e == Some(PhoneRequired) || e == Some(PhoneInvalid)
  {
    match v
    case None => Some(PhoneRequired)
    case Some(s) =>
      var t := Trim(s);
      if t == "" then Some(PhoneRequired)
      else if !MatchPhone(t) then Some(PhoneInvalid)
      else None
  }

  /** message: optional, trim, maxlength 500. */
  function MessageError(v: Option<string>): (e: Option<string>)
    ensures e == None <==> v.None? || Utf16Length(Trim(v.value)) <= MessageMax
    ensures e == None || e == Some(MessageTooLong)
  {
    match v
    case None => None
    case Some(s) => if Utf16Length(Trim(s)) > MessageMax then Some(MessageTooLong) else None
  }

  /** One field's error, by field. */
  function FieldError(c: Candidate, f: Field): Option<string> {
    match f
    case Name => NameError(c.name)
    case Email => EmailError(c.email)
    case Phone => PhoneError(c.phone)
    case Message => MessageError(c.message)
  }

  /**
   * The `errors` of the ValidationError a save raises: exactly the failing
   * fields, each with the message of its first failing validator.
   */
  function ServerErrors(c: Candidate): (r: map<Field, string>)
    ensures forall f :: f in r <==> FieldError(c, f).Some?
    ensures forall f :: f in r ==> r[f] == FieldError(c, f).value
  {
    map f | f in {Name, Email, Phone, Message} && FieldError(c, f).Some? :: FieldError(c, f).value
  }

  /** The record the setters build: trimmed strings, lower-cased email, `createdAt` defaulted to now. */
  function Build(c: Candidate, id: Id, now: int): (k: Contact)
    requires ServerErrors(c) == map[]
    ensures k.id == id && k.createdAt == now
    ensures k.name == Trim(c.name.value)
    ensures k.email == Lower(Trim(c.email.value))
    ensures k.phone == Trim(c.phone.value)
    ensures k.message == if c.message.Some? then Some(Trim(c.message.value)) else None
  {
    assert Name !in ServerErrors(c) && Email !in ServerErrors(c) && Phone !in ServerErrors(c);
    var message := if c.message.Some? then Some(Trim(c.message.value)) else None;
    Contact(id, Trim(c.name.value), Lower(Trim(c.email.value)), Trim(c.phone.value), message, now)
  }

  /** A candidate with no errors passes each field's validator. */
  lemma NoFieldErrors(c: Candidate)
    requires ServerErrors(c) == map[]
    ensures NameError(c.name) == None && EmailError(c.email) == None
    ensures PhoneError(c.phone) == None && MessageError(c.message) == None
  {
    assert FieldError(c, Name) == None && FieldError(c, Email) == None;
    assert FieldError(c, Phone) == None && FieldError(c, Message) == None;
  }

  /** What the setters and validators together guarantee of every record they let through. */
  lemma BuildConforms(c: Candidate, id: Id, now: int)
    requires ServerErrors(c) == map[]
    ensures Conforms(Build(c, id, now))
  {
    NoFieldErrors(c);
    var e := Trim(c.email.value);
    LowerKeepsTrimmed(e);
    LowerFacts(e);
  }

  /** A stored record read back as the field values of a new submission. */
  function AsCandidate(k: Contact): Candidate {
    Candidate(Some(k.name), Some(k.email), Some(k.phone), k.message)
  }

  /**
   * Every persisted contact satisfies the schema: its fields are already in
   * normal form (trimmed, email lower-cased) and pass every validator.
   */
  ghost predicate Conforms(k: Contact) {
    NormalName(k.name) && NormalEmail(k.email) && NormalPhone(k.phone) && NormalMessage(k.message)
  }

  /** A trimmed name of 2 to 100 UTF-16 code units. */
  ghost predicate NormalName(s: string) {
    Trimmed(s) && NameMin <= Utf16Length(s) <= NameMax
  }

  /** A trimmed, lower-case address the email pattern accepts. */
  ghost predicate NormalEmail(s: string) {
    Trimmed(s) && NoUpper(s) && MatchEmail(s)
  }

  /** A trimmed, non-empty run of phone characters. */
  ghost predicate NormalPhone(s: string) {
    Trimmed(s) && s != [] && forall i :: 0 <= i < |s| ==> IsPhoneChar(s[i])
  }

  /** No message, or a trimmed one of at most 500 UTF-16 code units. */
  ghost predicate NormalMessage(m: Option<string>) {
    match m
    case None => true
    case Some(s) => Trimmed(s) && Utf16Length(s) <= MessageMax
  }

  /**
   * Normalisation is a fixed point: a stored contact passes the schema again
   * and rebuilding it gives the same record.
   */
  lemma StoredRecordRevalidates(k: Contact)
    requires Conforms(k)
    ensures ServerErrors(AsCandidate(k)) == map[]
    ensures Build(AsCandidate(k), k.id, k.createdAt) == k
  {
    NormalNamePasses(k.name);
    NormalEmailPasses(k.email);
    NormalPhonePasses(k.phone);
    NormalMessagePasses(k.message);
    AllFieldsPass(AsCandidate(k));
  }

  /** A candidate that passes each field's validator has no errors. */
  lemma AllFieldsPass(c: Candidate)
    requires NameError(c.name) == None && EmailError(c.email) == None
    requires PhoneError(c.phone) == None && MessageError(c.message) == None
    ensures ServerErrors(c) == map[]
  {
    forall f ensures FieldError(c, f) == None {
    }
    assert ServerErrors(c).Keys == {};
  }

  /** A normal name passes the name validators. */
  lemma NormalNamePasses(s: string)
    requires NormalName(s)
    ensures NameError(Some(s)) == None && Trim(s) == s
  {
    TrimFacts(s);
  }

  /** A normal address passes the email validators. */
  lemma NormalEmailPasses(s: string)
    requires NormalEmail(s)
    ensures EmailError(Some(s)) == None && Lower(Trim(s)) == s
  {
    TrimFacts(s);
    LowerFacts(s);
  }

  /** A normal phone number passes the phone validators. */
  lemma NormalPhonePasses(s: string)
    requires NormalPhone(s)
    ensures PhoneError(Some(s)) == None && Trim(s) == s
  {
    TrimFacts(s);
  }

  /** A normal message passes the message validator. */
  lemma NormalMessagePasses(m: Option<string>)
    requires NormalMessage(m)
    ensures MessageError(m) == None
    ensures m.Some? ==> Trim(m.value) == m.value
  {
    if m.Some? {
      TrimFacts(m.value);
    }
  }

  /**
   * Nothing in the schema is unique and no rule looks at other records: the
   * verdict on a candidate depends on its own fields only, so two identical
   * submissions are both accepted.
   */
  lemma NoUniqueField(c: Candidate, id1: Id, id2: Id, t1: int, t2: int)
    requires ServerErrors(c) == map[] && id1 != id2
    ensures Build(c, id1, t1).id != Build(c, id2, t2).id
    ensures Build(c, id1, t1).(id := id2, createdAt := t2) == Build(c, id2, t2)
  {
  }

  /** A one-character name outside the Basic Multilingual Plane is two code units long, so it passes. */
  lemma SurrogateNamePasses(s: string)
    requires s == "\U{1F600}"
    ensures NameError(Some(s)) == None
  {
    assert Trimmed(s);
    TrimFacts(s);
    SurrogatePairLength();
  }

  /** The server examples: a name that is too short, one at the upper bound and one over it. */
  lemma NameBounds(s: string)
    ensures Trim(s) == "" ==> NameError(Some(s)) == Some(NameRequired)
    ensures Utf16Length(Trim(s)) == 1 ==> NameError(Some(s)) == Some(NameTooShort)
    ensures 2 <= Utf16Length(Trim(s)) <= 100 ==> NameError(Some(s)) == None
    ensures Utf16Length(Trim(s)) > 100 ==> NameError(Some(s)) == Some(NameTooLong)
  {
  }
}

=== FILE: patterns.dfy ===
/**
 * The two regular expressions of the contact schema, as hand-written
 * recognisers, each proved equal to a plain description of the strings it
 * accepts.
 *
 *   email: ^\w+([\.-]?\w+)*@\w+([\.-]?\w+)*(\.\w{2,3})+$
 *   phone: ^[\d\s\-\+\(\)]+$
 *
 * The email pattern is the application's own, not the addr-spec grammar of
 * section 3.4.1 of RFC 5322.
 */
module Patterns {
  import opened Text

  predicate IsSep(c: char) {
    c == '.' || c == '-'
  }

  // ---------------------------------------------------------------------
  // Reference descriptions

  /**
   * The language of `\w+([\.-]?\w+)*`: runs of word characters joined by
   * single '.' or '-' separators. So the string is not empty, starts and
   * ends with a word character, holds nothing but word characters and
   * separators, and never has two separators side by side.
   */
  ghost predicate WordRuns(s: string) {
    && |s| > 0
    && IsWordChar(s[0])
    && IsWordChar(s[|s| - 1])
    && (forall i :: 0 <= i < |s| ==> IsWordChar(s[i]) || IsSep(s[i]))
    && (forall i :: 0 <= i < |s| - 1 ==> IsWordChar(s[i]) || IsWordChar(s[i + 1]))
  }

  /**
   * The domain `\w+([\.-]?\w+)*(\.\w{2,3})+`: word runs whose last separator
   * is a '.' followed by a final segment of two or three word characters.
   */
  ghost predicate DomainShape(d: string) {
    && WordRuns(d)
    && exists k :: 0 <= k < |d| && d[k] == '.' && 2 <= |d| - 1 - k <= 3
         && forall j :: k < j < |d| ==> IsWordChar(d[j])
  }

  /** local-part '@' domain, as the whole email pattern reads. */
  ghost predicate EmailShape(s: string) {
    exists a :: 0 <= a < |s| && s[a] == '@' && WordRuns(s[..a]) && DomainShape(s[a + 1..])
  }

  // ---------------------------------------------------------------------
  // Recognisers

  /** First index of `c` in `s`, or |s| when `c` does not occur. */
  function IndexOf(s: string, c: char): (k: nat)
    ensures k <= |s|
    ensures k < |s| ==> s[k] == c
    ensures forall j :: 0 <= j < k ==> s[j] != c
  {
    if s == [] then 0
    else if s[0] == c then 0
    else 1 + IndexOf(s[1..], c)
  }

  /** Index of the last '.' or '-' in `s`, or -1 when there is none. */
  function LastSep(s: string): (k: int)
    ensures -1 <= k < |s|
    ensures k >= 0 ==> IsSep(s[k])
    ensures forall j :: k < j < |s| ==> !IsSep(s[j])
  {
    if s == [] then -1
    else if IsSep(s[|s| - 1]) then |s| - 1
    else LastSep(s[..|s| - 1])
  }

  /**
   * Matches `\w+([\.-]?\w+)*`, read as the equivalent `\w([\.-]?\w)*`: a word
   * character, then either the end or an optional separator and the rest.
   */
  function MatchRuns(s: string): bool
    decreases |s|
  {
    && |s| > 0
    && IsWordChar(s[0])
    && (|s| == 1 || MatchRuns(if IsSep(s[1]) then s[2..] else s[1..]))
  }

  /** Matches the domain: word runs whose last separator starts `\.\w{2,3}`. */
  function MatchDomain(d: string): bool {
    && MatchRuns(d)
    && var k := LastSep(d);
       k >= 0 && d[k] == '.' && 2 <= |d| - 1 - k <= 3
  }

  /** `test` of the email pattern. '@' is no word character, so it splits at the first '@'. */
  function MatchEmail(s: string): (b: bool)
    ensures b ==> 0 < IndexOf(s, '@') < |s| - 1
  {
    var a := IndexOf(s, '@');
    a < |s| && MatchRuns(s[..a]) && MatchDomain(s[a + 1..])
  }

  predicate IsPhoneChar(c: char) {
    IsDigit(c) || IsSpace(c) || c == '-' || c == '+' || c == '(' || c == ')'
  }

  function AllPhoneChars(s: string): (b: bool)
    ensures b <==> forall i :: 0 <= i < |s| ==> IsPhoneChar(s[i])
  {
    s == [] || (IsPhoneChar(s[0]) && AllPhoneChars(s[1..]))
  }

  /** `test` of the phone pattern: one or more of digits, whitespace, '-', '+', '(' and ')'. */
  function MatchPhone(s: string): (b: bool)
    ensures b <==> s != [] && forall i :: 0 <= i < |s| ==> IsPhoneChar(s[i])
  {
    s != [] && AllPhoneChars(s)
  }

  // ---------------------------------------------------------------------
  // Correctness of the recognisers

  /** The scan of `\w([\.-]?\w)*` accepts exactly the word runs. */
  lemma {:induction false} MatchRunsIsWordRuns(s: string)
    ensures MatchRuns(s) <==> WordRuns(s)
    decreases |s|
  {
    if |s| <= 1 {
    } else if IsSep(s[1]) {
      var t := s[2..];
      MatchRunsIsWordRuns(t);
      if WordRuns(t) && IsWordChar(s[0]) {
        forall i | 0 <= i < |s| ensures IsWordChar(s[i]) || IsSep(s[i]) {
          if i >= 2 { assert s[i] == t[i - 2]; }
        }
        forall i | 0 <= i < |s| - 1 ensures IsWordChar(s[i]) || IsWordChar(s[i + 1]) {
          if i >= 2 { assert s[i] == t[i - 2] && s[i + 1] == t[i - 1]; }
          if i == 1 { assert s[2] == t[0]; }
        }
        assert s[|s| - 1] == t[|t| - 1];
      }
      if WordRuns(s) {
        assert IsWordChar(s[2]) by { assert IsWordChar(s[1]) || IsWordChar(s[2]); }
        assert |s| > 2;
        forall i | 0 <= i < |t| ensures IsWordChar(t[i]) || IsSep(t[i]) {
          assert t[i] == s[i + 2];
        }
        forall i | 0 <= i < |t| - 1 ensures IsWordChar(t[i]) || IsWordChar(t[i + 1]) {
          assert t[i] == s[i + 2] && t[i + 1] == s[i + 3];
        }
        assert WordRuns(t);
      }
    } else {
      var t := s[1..];
      MatchRunsIsWordRuns(t);
      if WordRuns(t) && IsWordChar(s[0]) {
        forall i | 0 <= i < |s| ensures IsWordChar(s[i]) || IsSep(s[i]) {
          if i >= 1 { assert s[i] == t[i - 1]; }
        }
        forall i | 0 <= i < |s| - 1 ensures IsWordChar(s[i]) || IsWordChar(s[i + 1]) {
          if i >= 1 { assert s[i] == t[i - 1] && s[i + 1] == t[i]; }
        }
      }
      if WordRuns(s) {
        assert IsWordChar(s[1]);
        forall i | 0 <= i < |t| ensures IsWordChar(t[i]) || IsSep(t[i]) {
          assert t[i] == s[i + 1];
        }
        forall i | 0 <= i < |t| - 1 ensures IsWordChar(t[i]) || IsWordChar(t[i + 1]) {
          assert t[i] == s[i + 1] && t[i + 1] == s[i + 2];
        }
      }
    }
  }

  /** The domain check accepts exactly the domains of the email pattern. */
  lemma MatchDomainIsDomainShape(d: string)
    ensures MatchDomain(d) <==> DomainShape(d)
  {
    MatchRunsIsWordRuns(d);
    var k := LastSep(d);
    if MatchDomain(d) {
      assert WordRuns(d);
      forall j | k < j < |d| ensures IsWordChar(d[j]) {
        assert !IsSep(d[j]);
      }
    }
    if DomainShape(d) {
      var k' :| 0 <= k' < |d| && d[k'] == '.' && 2 <= |d| - 1 - k' <= 3
        && forall j :: k' < j < |d| ==> IsWordChar(d[j]);
      assert IsSep(d[k']);
      assert k == k';
    }
  }

  /** The email recogniser accepts exactly the strings of the email pattern. */
  lemma MatchEmailIsEmailShape(s: string)
    ensures MatchEmail(s) <==> EmailShape(s)
  {
    if MatchEmail(s) {
      MatchedEmailHasShape(s);
    }
    if EmailShape(s) {
      var a :| 0 <= a < |s| && s[a] == '@' && WordRuns(s[..a]) && DomainShape(s[a + 1..]);
      ShapedEmailMatches(s, a);
    }
  }

  lemma MatchedEmailHasShape(s: string)
    requires MatchEmail(s)
    ensures EmailShape(s)
  {
    var a := IndexOf(s, '@');
    MatchRunsIsWordRuns(s[..a]);
    MatchDomainIsDomainShape(s[a + 1..]);
  }

  lemma ShapedEmailMatches(s: string, a: nat)
    requires a < |s| && s[a] == '@' && WordRuns(s[..a]) && DomainShape(s[a + 1..])
    ensures MatchEmail(s)
  {
    FirstAt(s, a);
    MatchRunsIsWordRuns(s[..a]);
    MatchDomainIsDomainShape(s[a + 1..]);
  }

  /** An '@' preceded by word runs only is the first '@'. */
  lemma FirstAt(s: string, a: nat)
    requires a < |s| && s[a] == '@' && WordRuns(s[..a])
    ensures IndexOf(s, '@') == a
  {
    forall j | 0 <= j < a ensures s[j] != '@' {
      assert s[..a][j] == s[j];
    }
  }

  /** Accepted word runs begin and end with a word character. */
  lemma MatchRunsEnds(s: string)
    requires MatchRuns(s)
    ensures IsWordChar(s[0]) && IsWordChar(s[|s| - 1])
  {
    MatchRunsIsWordRuns(s);
  }

  /** An accepted email begins and ends with a word character, so `trim` leaves it alone. */
  lemma EmailHasNoOuterSpace(s: string)
    requires MatchEmail(s)
    ensures IsWordChar(s[0]) && IsWordChar(s[|s| - 1])
    ensures Trimmed(s)
  {
    var a := IndexOf(s, '@');
    var l, d := s[..a], s[a + 1..];
    MatchRunsEnds(l);
    MatchRunsEnds(d);
    assert l[0] == s[0];
    assert d[|d| - 1] == s[|s| - 1];
  }

  /** Every non-empty run of word characters is matched. */
  lemma {:induction false} MatchRunsWord(s: string)
    requires |s| > 0 && forall i :: 0 <= i < |s| ==> IsWordChar(s[i])
    ensures MatchRuns(s)
    decreases |s|
  {
    if |s| > 1 {
      assert IsWordChar(s[1]);
      MatchRunsWord(s[1..]);
    }
  }

  /** Lower-casing maps word characters to word characters and keeps the rest. */
  lemma {:induction false} MatchRunsLower(s: string)
    ensures MatchRuns(Lower(s)) == MatchRuns(s)
    decreases |s|
  {
    if |s| > 1 {
      var t := Lower(s);
      if IsSep(s[1]) {
        assert t[2..] == Lower(s[2..]);
        MatchRunsLower(s[2..]);
      } else {
        assert t[1..] == Lower(s[1..]);
        MatchRunsLower(s[1..]);
      }
    }
  }

  /** Lower-casing keeps every separator where it was. */
  lemma {:induction false} LastSepLower(s: string)
    ensures LastSep(Lower(s)) == LastSep(s)
    decreases |s|
  {
    if s != [] {
      assert Lower(s)[..|s| - 1] == Lower(s[..|s| - 1]);
      LastSepLower(s[..|s| - 1]);
    }
  }

  /** Lower-casing keeps the first '@' where it was. */
  lemma {:induction false} IndexOfLower(s: string)
    ensures IndexOf(Lower(s), '@') == IndexOf(s, '@')
    decreases |s|
  {
    if s != [] {
      assert Lower(s)[1..] == Lower(s[1..]);
      IndexOfLower(s[1..]);
    }
  }

  /** The server matches the lower-cased address; lower-casing never changes the verdict. */
  lemma MatchEmailLower(s: string)
    ensures MatchEmail(Lower(s)) == MatchEmail(s)
  {
    var a := IndexOf(s, '@');
    IndexOfLower(s);
    if a < |s| {
      LowerTake(s, a);
      LowerDrop(s, a + 1);
      MatchRunsLower(s[..a]);
      MatchDomainLower(s[a + 1..]);
    }
  }

  /** Lower-casing commutes with taking a prefix. */
  lemma LowerTake(s: string, k: nat)
    requires k <= |s|
    ensures Lower(s)[..k] == Lower(s[..k])
  {
  }

  /** Lower-casing commutes with dropping a prefix. */
  lemma LowerDrop(s: string, k: nat)
    requires k <= |s|
    ensures Lower(s)[k..] == Lower(s[k..])
  {
  }

  /** Lower-casing never changes the verdict on a domain. */
  lemma MatchDomainLower(d: string)
    ensures MatchDomain(Lower(d)) == MatchDomain(d)
  {
    MatchRunsLower(d);
    LastSepLower(d);
  }

  /** Two word runs joined by one separator are word runs: the `[\.-]?\w+` step of the pattern. */
  lemma {:induction false} MatchRunsJoin(a: string, c: char, b: string)
    requires MatchRuns(a) && IsSep(c) && MatchRuns(b)
    ensures MatchRuns(a + [c] + b)
    decreases |a|
  {
    var s := a + [c] + b;
    if |a| == 1 {
      assert s[2..] == b;
    } else if IsSep(a[1]) {
      assert s[2..] == a[2..] + [c] + b;
      MatchRunsJoin(a[2..], c, b);
    } else {
      assert s[1..] == a[1..] + [c] + b;
      MatchRunsJoin(a[1..], c, b);
    }
  }

  /** With a well-formed local part, the verdict on an address is the verdict on its domain. */
  lemma EmailSplit(local: string, domain: string)
    requires MatchRuns(local)
    ensures MatchEmail(local + "@" + domain) <==> MatchDomain(domain)
  {
    var s := local + "@" + domain;
    MatchRunsIsWordRuns(local);
    assert IndexOf(s, '@') == |local| by {
      assert s[|local|] == '@';
      forall j | 0 <= j < |local| ensures s[j] != '@' {
        assert s[j] == local[j];
      }
    }
    assert s[..|local|] == local;
    assert s[|local| + 1..] == domain;
  }

  /** The domain of the sample address is accepted. */
  lemma ExampleDomain(d: string)
    requires d == "example.com"
    ensures MatchDomain(d)
  {
    var l, r := d[..7], d[8..];
    assert l == "example" && r == "com";
    MatchRunsWord(l);
    MatchRunsWord(r);
    assert d == l + [d[7]] + r;
    MatchRunsJoin(l, d[7], r);
    assert !IsSep(d[8]) && !IsSep(d[9]) && !IsSep(d[10]);
    assert LastSep(d) == 7;
  }

  /** The sample address "user@example.com" is accepted. */
  lemma EmailAccepted(local: string, domain: string)
    requires local == "user" && domain == "example.com"
    ensures MatchEmail(local + "@" + domain)
  {
    MatchRunsWord(local);
    ExampleDomain(domain);
    EmailSplit(local, domain);
  }

  /** A four-letter final segment is rejected. */
  lemma EmailRejectsLongSegment()
    ensures !MatchEmail("a@b.info")
  {
    var d := "b.info";
    assert LastSep(d) == 1 by {
      assert IsSep(d[1]);
    }
    EmailSplit("a", d);
    assert "a" + "@" + d == "a@b.info";
  }

  /** A string without '@' and the empty string are rejected. */
  lemma EmailRejectsNoAt(s: string)
    requires forall j :: 0 <= j < |s| ==> s[j] != '@'
    ensures !MatchEmail(s)
  {
  }

  /** Two malformed addresses are rejected. */
  lemma EmailRejectedExamples()
    ensures !MatchEmail("not-an-email") && !MatchEmail("")
  {
    var u := "not-an-email";
    forall j | 0 <= j < |u| ensures u[j] != '@' { }
    EmailRejectsNoAt(u);
  }

  /** Letters and the empty string are rejected. */
  lemma PhoneRejectedExamples()
    ensures !MatchPhone("abc123")
    ensures !MatchPhone("")
  {
    assert "abc123"[0] == 'a';
  }

  /** A formatted number is accepted: digits, spaces, '+', '-' and parentheses. */
  lemma PhoneAccepted(s: string)
    requires s == "+1 (555) 123-4567"
    ensures MatchPhone(s)
  {
    forall i | 0 <= i < |s| ensures IsPhoneChar(s[i]) {
      if i < 9 {
        assert s[..9] == "+1 (555) ";
        assert s[i] == s[..9][i];
      } else {
        assert s[9..] == "123-4567";
        assert s[i] == s[9..][i - 9];
      }
    }
  }
}

=== FILE: sorting.dfy ===
/**
 * Sorting by a comparator, as `Array.prototype.sort` does: the comparator
 * follows the JavaScript convention (negative when its first argument goes
 * first, positive when its second does, zero when they tie). The proved
 * facts are that the result is a permutation, that it is ordered, and that
 * input already in order comes back unchanged; that ties keep their
 * relative order in every input is not stated.
 *
 * The reference algorithm is insertion sort: each element is inserted in
 * front of the first element it does not come after.
 */
module Sorting {

  /** Of any two elements, at least one may go first. */
  ghost predicate Total<T(!new)>(cmp: (T, T) -> int) {
    forall a, b :: cmp(a, b) <= 0 || cmp(b, a) <= 0
  }

  /** "May go first" is transitive. */
  ghost predicate Transitive<T(!new)>(cmp: (T, T) -> int) {
    forall a, b, c :: cmp(a, b) <= 0 && cmp(b, c) <= 0 ==> cmp(a, c) <= 0
  }

  /** Each element may go before its successor. */
  predicate Chained<T>(s: seq<T>, cmp: (T, T) -> int) {
    forall i :: 0 < i < |s| ==> cmp(s[i - 1], s[i]) <= 0
  }

  /** Every element may go before every later one. */
  predicate SortedBy<T>(s: seq<T>, cmp: (T, T) -> int) {
    forall i, j :: 0 <= i < j < |s| ==> cmp(s[i], s[j]) <= 0
  }

  /** Inserts `x` in front of the first element it may go before. */
  function Insert<T(==)>(x: T, s: seq<T>, cmp: (T, T) -> int): (r: seq<T>)
    ensures |r| == |s| + 1
    ensures multiset(r) == multiset(s) + multiset{x}
    ensures r[0] == x || (s != [] && r[0] == s[0])
  {
    if s == [] || cmp(x, s[0]) <= 0 then [x] + s
    else
      var t := Insert(x, s[1..], cmp);
      assert s == [s[0]] + s[1..];
      [s[0]] + t
  }

  /** The sorted copy `[...s].sort(cmp)`. */
  function SortBy<T(==)>(s: seq<T>, cmp: (T, T) -> int): (r: seq<T>)
    ensures |r| == |s|
    ensures multiset(r) == multiset(s)
  {
    if s == [] then []
    else
      assert s == [s[0]] + s[1..];
      Insert(s[0], SortBy(s[1..], cmp), cmp)
  }

  lemma {:induction false} InsertChained<T(!new)>(x: T, s: seq<T>, cmp: (T, T) -> int)
    requires Total(cmp) && Chained(s, cmp)
    ensures Chained(Insert(x, s, cmp), cmp)
  {
    if s == [] || cmp(x, s[0]) <= 0 {
    } else {
      var t := Insert(x, s[1..], cmp);
      InsertChained(x, s[1..], cmp);
      assert cmp(s[0], x) <= 0;
      var r := [s[0]] + t;
      forall i | 0 < i < |r| ensures cmp(r[i - 1], r[i]) <= 0 {
        if i > 1 {
          assert r[i - 1] == t[i - 2] && r[i] == t[i - 1];
        }
      }
    }
  }

  lemma {:induction false} SortByChained<T(!new)>(s: seq<T>, cmp: (T, T) -> int)
    requires Total(cmp)
    ensures Chained(SortBy(s, cmp), cmp)
  {
    if s != [] {
      SortByChained(s[1..], cmp);
      InsertChained(s[0], SortBy(s[1..], cmp), cmp);
    }
  }

  /** With a transitive comparator, neighbours in order means all pairs in order. */
  lemma ChainedIsSorted<T(!new)>(s: seq<T>, cmp: (T, T) -> int)
    requires Transitive(cmp) && Chained(s, cmp)
    ensures SortedBy(s, cmp)
  {
    forall i, j | 0 <= i < j < |s| ensures cmp(s[i], s[j]) <= 0 {
      var k := i + 1;
      while k < j
        invariant i < k <= j
        invariant cmp(s[i], s[k]) <= 0
      {
        k := k + 1;
      }
    }
  }

  /** A consistent comparator sorts: the result is ordered and a permutation of the input. */
  lemma SortBySorted<T(!new)>(s: seq<T>, cmp: (T, T) -> int)
    requires Total(cmp) && Transitive(cmp)
    ensures SortedBy(SortBy(s, cmp), cmp)
    ensures multiset(SortBy(s, cmp)) == multiset(s)
  {
    SortByChained(s, cmp);
    ChainedIsSorted(SortBy(s, cmp), cmp);
  }

  /** An already-ordered input comes back unchanged. */
  lemma {:induction false} SortByKeepsOrdered<T>(s: seq<T>, cmp: (T, T) -> int)
    requires Chained(s, cmp)
    ensures SortBy(s, cmp) == s
  {
    if s != [] {
      SortByKeepsOrdered(s[1..], cmp);
      assert s == [s[0]] + s[1..];
    }
  }
}

=== FILE: text.dfy ===
/** Optional values: a JSON field that is absent (or null) is `None`. */
module Wrappers {
  datatype Option<+T> = None | Some(value: T)
}

/**
 * ASCII character classes and the two string normalisations the schema uses:
 * `trim` (JavaScript's String.prototype.trim) and `toLowerCase`.
 * Whitespace is the ASCII part of JavaScript's `\s`: space, tab, line feed,
 * vertical tab, form feed and carriage return.
 */
module Text {

  predicate IsSpace(c: char) {
    c == ' ' || c == '\t' || c == '\n' || c == '\U{0B}' || c == '\U{0C}' || c == '\r'
  }

  predicate IsDigit(c: char) {
    '0' <= c <= '9'
  }

  predicate IsUpper(c: char) {
    'A' <= c <= 'Z'
  }

  /** `\w` of a regular expression without the `u` flag: `[A-Za-z0-9_]`. */
  predicate IsWordChar(c: char) {
    'a' <= c <= 'z' || IsUpper(c) || IsDigit(c) || c == '_'
  }

  predicate AllSpace(s: string) {
    forall k :: 0 <= k < |s| ==> IsSpace(s[k])
  }

  /** No whitespace at either end: what `trim` leaves behind. */
  predicate Trimmed(s: string) {
    s == [] || (!IsSpace(s[0]) && !IsSpace(s[|s| - 1]))
  }

  /** Drops leading whitespace. */
  function TrimStart(s: string): (r: string)
    ensures |r| <= |s|
    ensures r == [] || !IsSpace(r[0])
  {
    if s != [] && IsSpace(s[0]) then TrimStart(s[1..]) else s
  }

  /** Drops trailing whitespace. */
  function TrimEnd(s: string): (r: string)
    ensures |r| <= |s|
    ensures r == [] || !IsSpace(r[|r| - 1])
  {
    if s != [] && IsSpace(s[|s| - 1]) then TrimEnd(s[..|s| - 1]) else s
  }

  /** `TrimStart` keeps a suffix and drops only whitespace. */
  lemma {:induction false} TrimStartSuffix(s: string)
    ensures TrimStart(s) == s[|s| - |TrimStart(s)|..]
    ensures AllSpace(s[..|s| - |TrimStart(s)|])
  {
    if s != [] && IsSpace(s[0]) {
      TrimStartSuffix(s[1..]);
      var r := TrimStart(s[1..]);
      assert s[1..][..|s| - 1 - |r|] == s[1..|s| - |r|];
    }
  }

  /** `TrimEnd` keeps a prefix and drops only whitespace. */
  lemma {:induction false} TrimEndPrefix(s: string)
    ensures TrimEnd(s) == s[..|TrimEnd(s)|]
    ensures AllSpace(s[|TrimEnd(s)|..])
  {
    if s != [] && IsSpace(s[|s| - 1]) {
      TrimEndPrefix(s[..|s| - 1]);
      var r := TrimEnd(s[..|s| - 1]);
      assert s[..|s| - 1][|r|..] == s[|r|..|s| - 1];
      assert s[..|s| - 1][..|r|] == s[..|r|];
    }
  }

  /** `trim`: strip whitespace from both ends. */
  function Trim(s: string): (r: string)
    ensures Trimmed(r) && |r| <= |s|
  {
    var t := TrimStart(s);
    TrimEndPrefix(t);
    TrimEnd(t)
  }

  /**
   * `trim` returns the slice of `s` between its leading and its trailing
   * whitespace: every character it keeps comes from `s`, it is empty exactly
   * when `s` is all whitespace, and it leaves an already trimmed string alone.
   */
  lemma TrimFacts(s: string)
    ensures exists i ::
              && 0 <= i <= |s| - |Trim(s)|
              && Trim(s) == s[i..i + |Trim(s)|]
              && AllSpace(s[..i]) && AllSpace(s[i + |Trim(s)|..])
    ensures forall k :: 0 <= k < |Trim(s)| ==> Trim(s)[k] in s
    ensures Trim(s) == [] <==> AllSpace(s)
    ensures Trimmed(s) ==> Trim(s) == s
  {
    var t := TrimStart(s);
    var r := TrimEnd(t);
    var i := |s| - |t|;
    TrimStartSuffix(s);
    TrimEndPrefix(t);
    assert t == s[i..];
    assert r == s[i..i + |r|];
    assert AllSpace(s[..i]);
    assert AllSpace(s[i + |r|..]) by {
      assert s[i + |r|..] == t[|r|..];
    }
    assert Trim(s) == r;
    forall k | 0 <= k < |r| ensures r[k] in s {
      assert r[k] == s[i + k];
    }
    if r == [] {
      forall k | 0 <= k < |s| ensures IsSpace(s[k]) {
        assert s[..i][k] == s[k];
      }
    } else {
      assert !IsSpace(s[i]);
    }
    if Trimmed(s) && s != [] {
      assert !IsSpace(s[0]) && !IsSpace(s[|s| - 1]);
      assert i == 0 && i + |r| == |s|;
    }
  }

  /** Trimming twice is trimming once. */
  lemma TrimIdempotent(s: string)
    ensures Trim(Trim(s)) == Trim(s)
  {
    TrimFacts(Trim(s));
  }

  /**
   * `length` of a JavaScript string: the number of UTF-16 code units, so a
   * character outside the Basic Multilingual Plane counts twice.
   */
  function Utf16Length(s: string): (n: nat)
    ensures |s| <= n <= 2 * |s|
    ensures (forall k :: 0 <= k < |s| ==> s[k] as int < 0x1_0000) ==> n == |s|
    ensures |s| == 1 ==> n == if s[0] as int < 0x1_0000 then 1 else 2
  {
    if s == [] then 0 else (if s[0] as int < 0x1_0000 then 1 else 2) + Utf16Length(s[1..])
  }

  /** Code units add up over concatenation. */
  lemma {:induction false} Utf16LengthConcat(a: string, b: string)
    ensures Utf16Length(a + b) == Utf16Length(a) + Utf16Length(b)
  {
    if a != [] {
      assert (a + b)[1..] == a[1..] + b;
      Utf16LengthConcat(a[1..], b);
    } else {
      assert a + b == b;
    }
  }

  /** Trimming never lengthens a string, counted in code units. */
  lemma TrimUtf16Length(s: string)
    ensures Utf16Length(Trim(s)) <= Utf16Length(s)
  {
    var t := TrimStart(s);
    TrimStartSuffix(s);
    TrimEndPrefix(t);
    var i := |s| - |t|;
    var r := TrimEnd(t);
    assert Trim(s) == r;
    assert s == s[..i] + t;
    Utf16LengthConcat(s[..i], t);
    assert t == r + t[|r|..];
    Utf16LengthConcat(r, t[|r|..]);
  }

  /** A character outside the Basic Multilingual Plane is a surrogate pair: two code units. */
  lemma SurrogatePairLength()
    ensures Utf16Length("\U{1F600}") == 2
  {
  }

  /** Characters of the Basic Multilingual Plane count once each. */
  lemma BasicPlaneLength()
    ensures Utf16Length("ab") == 2
  {
  }

  /** One character of `toLowerCase`: ASCII upper-case letters become lower-case. */
  function LowerChar(c: char): (r: char)
    ensures IsWordChar(r) <==> IsWordChar(c)
    ensures IsSpace(r) <==> IsSpace(c)
    ensures !IsUpper(r)
    ensures !IsUpper(c) ==> r == c
    ensures IsUpper(c) ==> r as int - 'a' as int == c as int - 'A' as int
  {
    if IsUpper(c) then (c as int + 32) as char else c
  }

  /** `toLowerCase` on ASCII letters; every other character is kept. */
  function Lower(s: string): (r: string)
    ensures |r| == |s|
    ensures forall k :: 0 <= k < |s| ==> r[k] == LowerChar(s[k])
  {
    if s == [] then [] else [LowerChar(s[0])] + Lower(s[1..])
  }

  /** Lower-casing keeps whitespace where it was, so it commutes with trimming. */
  lemma LowerKeepsTrimmed(s: string)
    requires Trimmed(s)
    ensures Trimmed(Lower(s))
  {
  }

  /** No upper-case ASCII letter: what `toLowerCase` leaves behind. */
  predicate NoUpper(s: string) {
    forall k :: 0 <= k < |s| ==> !IsUpper(s[k])
  }

  /** Lower-casing yields a lower-case string and leaves one alone. */
  lemma LowerFacts(s: string)
    ensures NoUpper(Lower(s))
    ensures NoUpper(s) ==> Lower(s) == s
  {
  }

  /** Lower-casing twice is lower-casing once. */
  lemma LowerIdempotent(s: string)
    ensures Lower(Lower(s)) == Lower(s)
  {
    LowerFacts(Lower(s));
  }
}
